=== FILE: README.md ===
# qemubox core, modelled in Dafny

qemubox is a small command-line manager for QEMU virtual machines. Each
machine is a directory under `~/.local/share/qemubox/machines/<name>/` that
holds a `machine.toml` configuration and a qcow2 disk image. With UEFI the
directory is also expected to hold a firmware variable store,
`ovmf_vars.fd`; the launch command refers to it, but nothing in the program
creates it. The program has three subcommands:

- `ls` lists the machines.
- `new <name> --disk-size <MB>` creates one.
- `machine <name> run|remove` launches the hypervisor for a machine, or
  deletes its directory.

This project models the core of the program as pure functions and proves
properties about them.

- `wrappers.dfy` (`Wrappers`): `Option` and `Result`.
- `paths.dfy` (`Paths`): Unix paths as strings, with `Path::join`,
  `Path::file_name` and `Path::is_absolute`.
- `decimal.dfy` (`Decimal`): decimal rendering of unsigned integers
  (`to_string` and `format!("{n}M")`) and a parser for it.
- `qemu_config.dfy` (`QemuConfig`): the `Config` and `Machine` records, the
  `VideoOption` enum and `Machine::default`.
- `schema.dfy` (`Schema`): the strict serde mapping between `machine.toml`
  and `Config`.
  - Unknown fields, duplicate fields, missing fields, wrong value kinds,
    out-of-range `u32` values and unknown enum variants are all errors.
  - The module also holds the serializer.
- `launch.dfy` (`Launch`): `Config::construct_launch_command`, the
  `qemu-system-x86_64` invocation for one machine.
- `launch_props.dfy` (`LaunchProps`): an independent reader of that argument
  list, and proofs about it:
  - the configuration can be recovered from the arguments;
  - how often each option occurs;
  - the exact launch of a default machine.
- `registry.dfy` (`Registry`): `main.rs`, with the machines directory
  modelled as a map from entry name to entry. It covers:
  - the scan and its fail-fast behaviour (`get_machines`);
  - `ls`;
  - the lookup, `run` and the confirmation gate of `remove` (`machine`);
  - the guards and steps of `new_machine`;
  - the `Error` enum;
  - the dispatch in `main`.
- `registry_props.dfy` (`RegistryProps`): what a listing contains, where it
  fails, and how the subcommands change the directory, alone and in
  sequence.

Environment inputs become parameters:

- the home directory (`dirs::home_dir`);
- whether the machines directory can be read;
- the entry names `read_dir` yields, in the order it yields them (`order`);
- the failures of `create_dir` and `write` that the directory contents do
  not determine (`Faults`).

Each entry of the directory is one of:

- a file;
- a directory, with or without a readable `machine.toml`;
- an entry whose metadata cannot be read.

On Unix the standard library ends a `ReadDir` at its first error, and both
loops over it (in `get_machines` and `new_machine`) skip that error. A read
that fails part-way is therefore an `order` that stops short: the entries it
never reached are neither listed by `ls` nor compared by the name scan of
`new`. `RegistryProps.Enumerates` states that a read completed, and the
listing lemmas that need the whole directory require it.

Spawned processes are not run. They are returned as `Command` values
(`Launched`, `DiskRequested`).

Where the code and its documentation differ, the model follows the code:

- `cpus` and `memory` are `u32` values, and nothing rejects 0.
- `src/main.rs` calls `construct_launch_command` with one argument and
  matches `MachineCommand::Run` without its fields. The model uses the
  signature in `src/config.rs` and the variant in `src/cli.rs`: the machine
  directory `machines_dir.join(name)` and the `--cd-rom` option.
- When `machine` cannot list the machines, it reaches `todo!()` and panics
  instead of reporting the error. The model ends such a run with
  `Unfinished(cause)` and leaves the host unchanged.
- The name scan of `new_machine` compares entry names with the given name
  as strings. Names such as `foo/`, `./foo` and `a/../foo` (for a directory
  `a`) pass that scan even when `foo` exists, but the operating system
  resolves them to the entry `foo`. The model resolves names in
  `Registry.TargetOf`:
  - separators and `.` segments drop out;
  - the parent path is walked from the machines directory, where `..`
    inside a directory entry leads back;
  - a parent through a missing entry makes `create_dir` fail.

  `create_dir` then refuses an existing entry, and a fresh one becomes the
  machine `foo`.
- A new machine's disk is requested at `<dir>/disk.qcow2`. The default
  configuration names it `./disk.qcow2`, which resolves to
  `<dir>/./disk.qcow2`. These are the same file, but a different string.

## Model

| member | source | states |
|---|---|---|
| Paths.Join | src/config.rs:67-71 | An absolute path replaces the base. Otherwise the base stays as the prefix and the relative path as the suffix, and one separator is inserted between them exactly when the base is non-empty and does not already end in one |
| Paths.FileName | src/main.rs:112 | The file name of a path is its final component: a suffix with no separator, preceded by a separator or the start of the path |
| Paths.FileNameOfJoin | src/main.rs:108-112 | A machine listed from entry `k` of the machines directory is named `k` whenever `k` is a single path component |
| Paths.Segments | src/main.rs:137 | The components a path is walked by are non-empty; repeated and trailing separators produce none |
| Paths.SegmentsAreComponents | src/main.rs:137 | No component contains a separator |
| Paths.SegmentsOfComponent | src/main.rs:137 | A non-empty name without separators is one component |
| Paths.SegmentsAroundSeparator | src/main.rs:137 | Splitting a path at a separator splits its components into those of the two sides, in order |
| Paths.SegmentsOfJoin | src/main.rs:137 | Joining a relative path onto a base appends its components to the base's |
| Decimal.NatToString | src/config.rs:75-78 | The rendering of a count is a non-empty digit string with no leading zero |
| Decimal.ParseNat | src/config.rs:75-78 | The numeral reader accepts exactly the non-empty digit strings |
| Decimal.ValueOfNatToString | src/config.rs:75-78 | A rendered number denotes that number |
| Decimal.ParseNatRoundTrip | src/config.rs:75-78 | Rendering a number and reading it back gives the number |
| Decimal.NatToStringInjective | src/config.rs:75-78 | Different cpu counts or memory sizes render as different tokens |
| QemuConfig.DefaultMachine | src/config.rs:34-45 | No contract of its own. LaunchProps.DefaultLaunch gives the exact launch of a default machine, and RegistryProps.DefaultConfigReadsBack shows that a written default configuration reads back unchanged |
| Schema.ParseVideo | src/config.rs:25-32 | A video name is accepted exactly when it is the lower-case name of a variant, and it yields that variant |
| Schema.VisitOnlyUnseen | src/config.rs:14-23 | A field is accepted only if it names a struct field that has not been seen yet |
| Schema.VisitMarksSeen | src/config.rs:14-23 | Accepting a field marks that struct field seen and leaves the others as they were |
| Schema.VisitKeepsAgreement | src/config.rs:14-23 | A record that agrees with the fields gathered after a visit already agreed with those gathered before it |
| Schema.VisitEncodesField | src/config.rs:14-23 | A field accepted on the way to record `m` is one of the fields serde writes for `m` |
| Schema.VisitUpdatesOneField | src/config.rs:14-23 | Accepting a field stores its value in that struct field only |
| Schema.Complete | src/config.rs:14-23 | The record is built exactly when all six fields were given; there are no defaults |
| Schema.CompleteAgrees | src/config.rs:14-23 | The record built from a complete set of fields agrees with every field given |
| Schema.DecodeMachineFieldsKeys | src/config.rs:14-23 | A table that decodes names every missing field exactly once and nothing else |
| Schema.DecodeMachineFieldsValues | src/config.rs:14-23 | Every field of a table that decodes holds the value serde writes for the resulting record |
| Schema.DecodedShapeIsExact | src/config.rs:8-23 | A document that decodes has only `machine` at the top level, and a `[machine]` table with exactly the six fields, each once, holding the decoded values |
| Schema.DecodeTopSingle | src/config.rs:8-12 | The top level decodes only as a single `machine` table that decodes to the record's machine |
| Schema.FromStr | src/main.rs:110 | No contract of its own. Schema.FromStrRoundTrip, Schema.DecodedShapeIsExact, Schema.DecodeTopSingle and Schema.UnknownFieldRejected state what it accepts and returns |
| Schema.ToStringPretty | src/main.rs:142 | No contract of its own. Schema.FromStrRoundTrip states that its text parses back as the configuration it was given |
| Schema.DistinctKeysCount | src/config.rs:14-23 | A table whose keys are distinct has as many keys as fields |
| Schema.UnknownFieldRejected | src/config.rs:15 | A key outside the schema anywhere in the `[machine]` table makes decoding fail |
| Schema.FromStrRoundTrip | src/main.rs:142 | Deserializing the pretty-printed text of any configuration gives that configuration back |
| Launch.ResolveDiskPath | src/config.rs:67-71 | An absolute disk path is used as given; a relative one is placed under the machine directory |
| Launch.OvmfVarsDrive | src/config.rs:84-90 | No contract of its own. Launch.FirmwareDrivesPosition places it in the arguments, and LaunchProps.ParseFirmwareOf reads it back |
| Launch.VideoTokens | src/config.rs:101-106 | The video mode contributes three tokens for `none` and two otherwise |
| Launch.Front | src/config.rs:75-99 | The tokens before the video mode number 4, plus 1 with kvm, plus 4 with uefi |
| Launch.ConstructLaunchCommand | src/config.rs:47-119 | The program is `qemu-system-x86_64`, the argument count follows from the settings, and the last argument is the resolved disk |
| Launch.ArgsSplit | src/config.rs:73-116 | The arguments are the front tokens, then the video tokens, then the optional CD-ROM pair and the disk |
| Launch.ArgsFront | src/config.rs:75-99 | The arguments before the video start are the front tokens |
| Launch.ArgsVideo | src/config.rs:101-106 | The video tokens sit at the video start |
| Launch.ArgsTail | src/config.rs:108-116 | After the video tokens come exactly the optional CD-ROM pair and the disk |
| Launch.LaunchArgsPrefix | src/config.rs:75-78 | The arguments open with `-smp <cpus> -m <memory>M` |
| Launch.KvmFlagPosition | src/config.rs:80-82 | The fifth argument is `-enable-kvm` exactly when kvm is enabled |
| Launch.FirmwareDrivesPosition | src/config.rs:84-99 | With uefi, the shared read-only firmware drive and then the machine's own variable store come just before the video mode |
| Launch.CdRomPosition | src/config.rs:108-111 | With a CD-ROM image, `-cdrom <path>` follows the video tokens |
| LaunchProps.ParseMemoryRoundTrip | src/config.rs:77-78 | The memory token reads back as the configured number of megabytes |
| LaunchProps.ParseKvmOf | src/config.rs:80-82 | The reader recovers the kvm setting from the acceleration flag |
| LaunchProps.ParseFirmwareOf | src/config.rs:84-99 | The reader recovers the uefi setting and the variable-store drive from the firmware tokens |
| LaunchProps.ParseVideoOf | src/config.rs:101-106 | The reader recovers the video mode from its tokens |
| LaunchProps.ParseTailOf | src/config.rs:108-116 | The reader recovers the CD-ROM image and the disk from the final tokens |
| LaunchProps.ParseHeaderOf | src/config.rs:75-78 | The reader recovers the cpu count and the memory size from the leading pairs |
| LaunchProps.ParseOptionsSteps | src/config.rs:80-116 | Reading the groups in the launcher's order yields the view they describe |
| LaunchProps.ParseOptionsOf | src/config.rs:80-116 | The tokens after the leading pairs read back as the machine's view |
| LaunchProps.LaunchArgsRoundTrip | src/config.rs:47-119 | Reading the argument list recovers cpus, memory, kvm, the variable store, the video mode, the CD-ROM image and the resolved disk |
| LaunchProps.LaunchArgsDetermineView | src/config.rs:47-119 | Two launches with the same arguments present the same view: no settings are conflated |
| LaunchProps.ArgsMultiset | src/config.rs:73-116 | As a bag of tokens, the argument list is exactly the union of its groups |
| LaunchProps.PrefixOptionCount | src/config.rs:75-78 | Among the leading pairs, only `-smp` and `-m` are options, once each |
| LaunchProps.ArgsCount | src/config.rs:73-116 | The occurrences of any token in the arguments add up over the groups and the disk |
| LaunchProps.GroupCounts | src/config.rs:75-111 | Over the launcher's groups, an option occurs as often as the settings ask for it, plus once if the CD-ROM path is spelled like it |
| LaunchProps.OptionCount | src/config.rs:73-116 | An option occurs as often as the settings ask for it (one `-smp`, one `-m`, one `-vga`, `-enable-kvm` with kvm, two `-drive` with uefi, `-nographic` for `none`, `-cdrom` with an image), plus once per user path spelled like it |
| LaunchProps.CdRomOptionCount | src/config.rs:108-111 | The CD-ROM group holds one `-cdrom` and the path, or nothing |
| LaunchProps.VideoOptionCount | src/config.rs:101-106 | The video group holds one `-vga`, and `-nographic` only for `none` |
| LaunchProps.FirmwareOptionCount | src/config.rs:92-99 | The firmware group holds `-drive` twice with uefi and nothing otherwise |
| LaunchProps.KvmFlagCount | src/config.rs:80-82 | `-enable-kvm` occurs once with kvm and never without it, apart from user paths spelled like it |
| LaunchProps.DriveFlagCount | src/config.rs:92-99 | `-drive` occurs twice with uefi and never without it, apart from user paths spelled like it |
| LaunchProps.NographicFlagCount | src/config.rs:105 | `-nographic` occurs once exactly for video `none`, apart from user paths spelled like it |
| LaunchProps.CdRomFlagCount | src/config.rs:108-111 | `-cdrom` occurs once exactly when an image is given, apart from user paths spelled like it |
| LaunchProps.PresentIffCounted | src/config.rs:73-116 | When no user path reads as an option, an option is present exactly when the launcher puts it in |
| LaunchProps.FlagsMatchSettings | src/config.rs:80-111 | When the user's paths do not start with `-`, each flag is present exactly when its setting asks for it |
| LaunchProps.DefaultLaunch | src/config.rs:34-45 | A default machine launches as `-smp 2 -m 2048M -enable-kvm -vga std <dir>/./disk.qcow2` |
| Registry.GetMachinesDir | src/main.rs:90-97 | The machines directory is available exactly when there is a home directory and the directory can be read; otherwise the error says which check failed |
| Registry.Scan | src/main.rs:104-121 | The scan succeeds exactly when no entry holds a `machine.toml` that fails to parse, and lists at most one machine per entry |
| Registry.GetMachines | src/main.rs:100-124 | Listing succeeds exactly when there is a home directory, the machines directory is readable and no entry in `read_dir` order holds a configuration that fails to parse. On success the directory is `~/.local/share/qemubox/machines` and there is at most one machine per entry |
| Registry.FindMachine | src/main.rs:51 | A machine is found exactly when one of that name is listed, and the one found is listed under that name |
| Registry.ListMachines | src/main.rs:32-45 | `ls` never changes the machines directory, and ends with either a listing or an error |
| Registry.MachineSubcommand | src/main.rs:48-81 | `machine` never adds an entry or changes the home directory. Only a successful confirmed removal changes the directory, and the only error it reports is `NoMachineByName` |
| Registry.NameTaken | src/main.rs:129-135 | The name scan of `new` compares names as strings and sees only the entries the read yielded; stated by `RegistryProps.NewRefusesTakenName`, `CompleteReadSeesEveryName` and `NewMissesUnreachedEntry` |
| Registry.TargetOf | src/main.rs:137-138 | The directory `create_dir(machines_dir.join(name))` makes is always a single plain component of the machines directory; how names resolve is stated by `RegistryProps.TargetOfFileName`, `TargetOfTrailingSeparator`, `TargetOfCurrentDirPrefix`, `TargetOfParentStep`, `TargetOfMissingParent` and `TargetOfAfterAdd` |
| Registry.CreateDirRefused | src/main.rs:138-140 | `create_dir` fails on an existing entry, on a path ending in `.` or `..`, and under a missing entry; stated by `RegistryProps.NewCreateDirFailure` |
| Registry.DiskImageCommand | src/main.rs:150-157 | `qemu-img create -f qcow2 <dir>/disk.qcow2 <size>M`; its size argument reads back by `RegistryProps.DiskSizeReadsBack` |
| Registry.NewMachine | src/main.rs:127-163 | `new` never alters or removes an existing entry. The only entry it can add is the one its name addresses, and it changes the directory only on success or after a failed write |
| Registry.Dispatch | src/main.rs:15-27 | No subcommand changes the home directory or readability, or rewrites an entry it keeps |
| RegistryProps.ScanListsOnlyLoadable | src/main.rs:104-121 | Every listed machine comes from a directory entry whose `machine.toml` parses, and carries that configuration |
| RegistryProps.FromLoadableCons | src/main.rs:104-121 | Listings drawn from the later entries stay drawn from the whole order, also after adding the first entry's machine when it loads |
| RegistryProps.ScanListsEveryLoadable | src/main.rs:104-121 | Every directory entry whose `machine.toml` parses is listed |
| RegistryProps.ScanFailsAtFirstBroken | src/main.rs:109-115 | A failed scan reports the first entry, in `read_dir` order, whose configuration does not parse, with that entry's path and the parser's error |
| RegistryProps.ScanNamesDistinct | src/main.rs:104-121 | Listed names are pairwise distinct |
| RegistryProps.ConsDistinct | src/main.rs:111-114 | Adding a machine whose name is not yet listed keeps the names distinct |
| RegistryProps.ListingIsExact | src/main.rs:100-124 | For a read of the directory that completes, the listing holds exactly the loadable entries, under their entry names, with their configurations, and no name twice |
| RegistryProps.ListingOnlyLoadable | src/main.rs:100-124 | With entry names that are single path components, each listed machine is named after a loadable entry and carries its configuration |
| RegistryProps.ListingEveryLoadable | src/main.rs:100-124 | When the order covers every entry, each loadable entry is listed under its own name with its configuration |
| RegistryProps.ListingSucceedsIff | src/main.rs:100-124 | Listing succeeds exactly when the home directory is known, the directory is readable and no configuration fails to parse |
| RegistryProps.ListingFailureNamesFirstBroken | src/main.rs:100-124 | A listing that fails on a configuration names the first broken `machine.toml` in `read_dir` order |
| RegistryProps.FindsLoadable | src/main.rs:49-51 | The lookup finds a name exactly when that entry is loadable, and returns its configuration |
| RegistryProps.LsShowsLoadableNames | src/main.rs:32-45 | `ls` shows each loadable machine's name once and nothing else, and changes nothing |
| RegistryProps.RunLaunchesNamedMachine | src/main.rs:53-63 | `run` launches the named machine's configuration from `machines_dir/<name>` with the given CD-ROM image, and changes nothing |
| RegistryProps.UnknownNameRefused | src/main.rs:73-74 | A name that no listed machine has fails with `NoMachineByName`, and changes nothing |
| RegistryProps.ConfirmedRemoveDeletes | src/main.rs:64-67 | `remove --yes` deletes exactly the named machine's directory |
| RegistryProps.UnconfirmedRemoveKeeps | src/main.rs:68-70 | `remove` without `--yes` only warns, naming the directory, and changes nothing |
| RegistryProps.RemovedMachineNotListed | src/main.rs:64-67 | After a confirmed removal the machine is no longer listed, and every other machine still is, with the same configuration |
| RegistryProps.NewRefusesTakenName | src/main.rs:129-135 | Creating a name the read of the directory yielded fails with `NewMachineDirectoryExists` before anything is created |
| RegistryProps.NewCreateDirFailure | src/main.rs:137-140 | When `create_dir` fails — because of the file system, or because the name addresses an existing entry, the machines directory itself, or a path ending in `.` or `..` — the result is `CreateMachineDirectoryFail` and nothing changes |
| RegistryProps.CompleteReadSeesEveryName | src/main.rs:129-135 | When the read of the directory completes, the name scan finds a name exactly when it is an entry |
| RegistryProps.UnknownNameNotTaken | src/main.rs:129-135 | A name that is no entry is never found by the name scan |
| RegistryProps.NewMissesUnreachedEntry | src/main.rs:129-140 | An entry the read never reached because reading failed first passes the name scan, and `new` then fails with `CreateMachineDirectoryFail` and changes nothing |
| RegistryProps.UnreachedEntryNotListed | src/main.rs:104-121 | An entry the read never reached because reading failed first is missing from a successful listing |
| RegistryProps.DefaultConfigReadsBack | src/main.rs:142 | The text written for a new machine parses back as the default configuration |
| RegistryProps.NewCreatesDefaultMachine | src/main.rs:137-160 | A successful `new` adds exactly one directory, the entry the name addresses, holding the default configuration. It requests `qemu-img create -f qcow2 <machines_dir>/<name>/disk.qcow2 <size>M` |
| RegistryProps.DiskSizeReadsBack | src/main.rs:156 | The size argument ends in `M` and its digits read back as the requested size |
| RegistryProps.FailedWriteLeavesDirectory | src/main.rs:144-146 | When writing `machine.toml` fails, the entry the name addresses stays behind as a directory without a configuration |
| RegistryProps.CreateTwiceConflicts | src/main.rs:129-146 | Unless the file system refused the first directory, a second `new` of a plain name whose read completes fails with `NewMachineDirectoryExists` and changes nothing, whether the first found the name taken, collided with an entry its read never reached, or created the directory |
| RegistryProps.CreateTwiceFails | src/main.rs:129-140 | After a `new` that created anything, a second `new` of the same name fails, through the name scan or through `create_dir`, and changes nothing |
| RegistryProps.NewChangeAddsAddressedEntry | src/main.rs:127-146 | A `new` that changes the directory found the machines directory and created the entry its name addresses, which did not exist before |
| RegistryProps.NewThenRunLaunchesDefault | src/main.rs:127-163 | A machine just created launches with the default configuration from its new directory |
| RegistryProps.TargetOfFileName | src/main.rs:137 | A name that is a single path component addresses the entry of that name |
| RegistryProps.TargetOfTrailingSeparator | src/main.rs:137 | `name/` addresses the same entry as `name` |
| RegistryProps.TargetOfCurrentDirPrefix | src/main.rs:137 | `./name` addresses the same entry as `name` |
| Registry.Walk | src/main.rs:137-138 | Once a component of the parent path is missing, the walk stays blocked |
| RegistryProps.SegmentsOfParentStep | src/main.rs:137 | `a/../b` is walked as the three components `a`, `..`, `b` |
| RegistryProps.TargetOfParentStep | src/main.rs:137-138 | Through a directory entry `a`, `a/../b` addresses the entry `b` |
| RegistryProps.TargetOfMissingParent | src/main.rs:137-139 | A path under an entry that does not exist can never be created |
| RegistryProps.WalkAfterAdd | src/main.rs:137-146 | Adding an entry where there was none leaves any walk that was not blocked unchanged |
| RegistryProps.TargetOfAfterAdd | src/main.rs:137-146 | Creating an entry that did not exist leaves what a name addresses unchanged |
| RegistryProps.NewAliasOfExistingRefused | src/main.rs:129-140 | A name that passes the string comparison but addresses an existing entry is refused by `create_dir`. Nothing is created and no disk is requested |
| RegistryProps.TrailingSeparatorCollides | src/main.rs:129-140 | `new foo/` next to an existing `foo` fails with `CreateMachineDirectoryFail` and leaves `foo` alone |
| RegistryProps.TrailingSeparatorCreates | src/main.rs:137-146 | `new foo/` when there is no `foo` creates the loadable default machine `foo` |
| RegistryProps.ParentStepCollides | src/main.rs:129-140 | `new a/../b` through a directory `a` passes the name scan, but is refused by `create_dir` when `b` exists, and leaves `b` alone |
| RegistryProps.ParentStepCreates | src/main.rs:137-146 | `new a/../b` through a directory `a` creates the loadable default machine `b` when there is none |
| RegistryProps.MissingParentRefused | src/main.rs:137-140 | `new a/b` with no entry `a` fails with `CreateMachineDirectoryFail` and changes nothing |
| RegistryProps.NoHomeFailsEverything | src/main.rs:77-91 | Without a home directory `ls` and `new` fail with `NoHomeDirectory`, `machine` stops at its `todo!()` branch (`Unfinished(NoHomeDirectory)`), and the host is unchanged |
| RegistryProps.ReadOnlySubcommands | src/main.rs:18-22 | `ls`, `run` and an unconfirmed `remove` never change the machines directory |
| RegistryProps.ChangesOnlyOnSuccess | src/main.rs:18-22 | Only `new` (on success, or after a failed write) and a successful confirmed `remove` change the machines directory |

## Left out

- Argument parsing by clap (`src/cli.rs`): subcommands arrive as
  `CliCommand` values.
- The `edit` machine subcommand has no handler in `main`. It is not
  modelled.
- Output: the error messages of `report_error`, the colouring, and what
  `ls` prints. `ls` is modelled as the list of names it shows.
- The TOML syntax layer: text that is not TOML is `Malformed(message)`, and
  a document is modelled after parsing, as an ordered table.
- Integer widths in TOML beyond the `u32` range check: values are unbounded
  integers that are checked against `u32`.
- Launching and waiting for the hypervisor, and the unwraps on `spawn` and
  `wait`. `run` returns the command; its exit status is discarded in the
  source as well.
- The `--verbose` flag of `run`: it is carried in the model but the source
  never reads it.
- The `qemu-img` process: the source spawns it and never waits, so success
  of `new` does not mean the image exists. The model returns the command.
- Panics from `remove_dir_all(...).unwrap()` and from `spawn().unwrap()`.
  The model treats removal as always succeeding.
- `to_string_lossy` and non-UTF-8 file names: names are strings.
- Registry.NewMachine: some names passed to `new` cannot be placed from
  the entries alone. These are:
  - absolute names;
  - names that climb above the machines directory (`../machines/b` is the
    entry `b` again);
  - names that go down into a subdirectory of an entry (`a/x/../../b`);
  - names that pass through an entry not known to be a directory, which
    may be a link.

  The model does not track what `create_dir` does for them. Such a name can
  in fact create, or collide with, an entry of the machines directory. The
  model leaves the map unchanged and lets the `createDirFails` parameter
  decide. Directories created inside an entry (`a/b`) are not tracked
  either. Symbolic links are not modelled.
- Paths.FileName: models `Path::file_name` only for paths that do not end
  in a separator, `.` or `..`. Those are the only paths the program asks
  about.

=== FILE: decimal.dfy ===
/**
  Decimal rendering of unsigned integers, as Rust's `to_string` and `format!`
  produce it for `u32`, and the matching parser.
*/
module Decimal {
  import opened Wrappers

  predicate IsDigit(c: char) {
    '0' <= c <= '9'
  }

  predicate AllDigits(s: string) {
    forall i :: 0 <= i < |s| ==> IsDigit(s[i])
  }

  function DigitChar(d: nat): (c: char)
    requires d < 10
    ensures IsDigit(c) && DigitValue(c) == d
  {
    (('0' as int) + d) as char
  }

  function DigitValue(c: char): nat
    requires IsDigit(c)
  {
    (c as int) - ('0' as int)
  }

  /** The shortest decimal numeral of `n`: only digits, no leading zero. */
  function NatToString(n: nat): (s: string)
    ensures |s| >= 1 && AllDigits(s)
    ensures |s| > 1 ==> s[0] != '0'
    decreases n
  {
    if n < 10 then [DigitChar(n)]
    else NatToString(n / 10) + [DigitChar(n % 10)]
  }

  /** The number a digit string denotes; the empty string denotes 0. */
  function Value(s: string): nat
    requires AllDigits(s)
    decreases |s|
  {
    if |s| == 0 then 0
    else Value(s[..|s| - 1]) * 10 + DigitValue(s[|s| - 1])
  }

  /** Parses a decimal numeral; anything but a non-empty digit string is rejected. */
  function ParseNat(s: string): (r: Option<nat>)
    ensures r.Some? <==> |s| > 0 && AllDigits(s)
  {
    if |s| > 0 && AllDigits(s) then Some(Value(s)) else None
  }

  lemma {:induction false} ValueOfNatToString(n: nat)
    ensures Value(NatToString(n)) == n
    decreases n
  {
    var s := NatToString(n);
    if n >= 10 {
      ValueOfNatToString(n / 10);
      assert s[..|s| - 1] == NatToString(n / 10);
    }
  }

  /** Rendering then parsing gives the number back. */
  lemma ParseNatRoundTrip(n: nat)
    ensures ParseNat(NatToString(n)) == Some(n)
  {
    ValueOfNatToString(n);
  }

  /** Distinct numbers render as distinct numerals. */
  lemma NatToStringInjective(a: nat, b: nat)
    requires NatToString(a) == NatToString(b)
    ensures a == b
  {
    ParseNatRoundTrip(a);
    ParseNatRoundTrip(b);
  }
}

=== FILE: launch.dfy ===
/**
  `Config::construct_launch_command`: the `qemu-system-x86_64` invocation for
  one machine, given the directory that holds it and an optional CD-ROM image.
*/
module Launch {
  import opened Paths
  import opened Decimal
  import opened QemuConfig
  import W = Wrappers

  /** A process to spawn: the program name and its argument tokens. */
  datatype Command = Command(program: string, args: seq<string>)

  const Hypervisor := "qemu-system-x86_64"

  /** The shared UEFI firmware image installed by the system's edk2 package. */
  const OvmfCodeImage := "/usr/share/edk2-ovmf/x64/OVMF_CODE.fd"

  /** The drive specification mapping the shared firmware image read-only. */
  const OvmfCodeDrive := "if=pflash,format=raw,readonly=on,file=" + OvmfCodeImage

  /** The per-machine, writable UEFI variable store inside `dir`. */
  function OvmfVarsDrive(dir: Path): string {
    "if=pflash,format=raw,file=" + Join(dir, "ovmf_vars.fd")
  }

  /** The disk image: an absolute path is kept, a relative one is taken under `dir`. */
  function ResolveDiskPath(disk: Path, dir: Path): (r: Path)
    ensures IsAbsolute(disk) ==> r == disk
    ensures !IsAbsolute(disk) ==> r == Join(dir, disk)
    ensures !IsAbsolute(disk) ==> r[..|dir|] == dir && r[|r| - |disk|..] == disk
  {
    if IsAbsolute(disk) then disk else Join(dir, disk)
  }

  function KvmTokens(kvm: bool): seq<string> {
    if kvm then ["-enable-kvm"] else []
  }

  function FirmwareTokens(uefi: bool, dir: Path): seq<string> {
    if uefi then ["-drive", OvmfCodeDrive, "-drive", OvmfVarsDrive(dir)] else []
  }

  function VideoTokens(video: VideoOption): (r: seq<string>)
    ensures |r| == VideoLength(video)
  {
    match video
    case Std => ["-vga", "std"]
    case VirtIo => ["-vga", "virtio"]
    case Qxl => ["-vga", "qxl"]
    case None => ["-vga", "none", "-nographic"]
  }

  function CdRomTokens(cdRom: W.Option<Path>): seq<string> {
    if cdRom.Some? then ["-cdrom", cdRom.value] else []
  }

  /** The number of tokens the video mode contributes. */
  function VideoLength(video: VideoOption): nat {
    if video == None then 3 else 2
  }

  /** Where the video tokens start in the argument list. */
  function VideoStart(m: Machine): nat {
    4 + (if m.kvm then 1 else 0) + (if m.uefi then 4 else 0)
  }

  /** The length of the argument list for a machine and an optional CD-ROM. */
  function ArgCount(m: Machine, cdRom: W.Option<Path>): nat {
    VideoStart(m) + VideoLength(m.video) + (if cdRom.Some? then 2 else 0) + 1
  }

  /**
    The hypervisor command. The tokens come in a fixed order: cpu count,
    memory in megabytes, the optional acceleration flag, the optional pair of
    firmware drives, the video mode, the optional CD-ROM, and last the
    resolved disk image, which the hypervisor takes as its boot disk.
  */
  function ConstructLaunchCommand(c: Config, dir: Path, cdRom: W.Option<Path>): (cmd: Command)
    ensures cmd.program == Hypervisor
    ensures |cmd.args| == ArgCount(c.machine, cdRom)
    ensures cmd.args[|cmd.args| - 1] == ResolveDiskPath(c.machine.disk, dir)
  {
    Command(Hypervisor, Prefix(c.machine) + Options(c.machine, dir, cdRom))
  }

  /** The tokens after the cpu and memory pairs, ending with the disk. */
  function Options(m: Machine, dir: Path, cdRom: W.Option<Path>): seq<string> {
    KvmTokens(m.kvm) + (FirmwareTokens(m.uefi, dir) + (VideoTokens(m.video) + Tail(m, dir, cdRom)))
  }

  /** The optional CD-ROM pair and the boot disk. */
  function Tail(m: Machine, dir: Path, cdRom: W.Option<Path>): seq<string> {
    CdRomTokens(cdRom) + [ResolveDiskPath(m.disk, dir)]
  }

  /** The cpu-count and memory pairs that open every argument list. */
  function Prefix(m: Machine): seq<string> {
    ["-smp", NatToString(m.cpus), "-m", NatToString(m.memory) + "M"]
  }

  /** The tokens before the video mode. */
  function Front(m: Machine, dir: Path): (r: seq<string>)
    ensures |r| == VideoStart(m)
  {
    Prefix(m) + KvmTokens(m.kvm) + FirmwareTokens(m.uefi, dir)
  }

  /** The argument list splits into the front tokens, the video tokens and the rest. */
  lemma ArgsSplit(c: Config, dir: Path, cdRom: W.Option<Path>)
    ensures var args := ConstructLaunchCommand(c, dir, cdRom).args;
            var v := VideoStart(c.machine);
            args[..v] == Front(c.machine, dir)
            && args[v..v + VideoLength(c.machine.video)] == VideoTokens(c.machine.video)
            && args[v + VideoLength(c.machine.video)..] == Tail(c.machine, dir, cdRom)
  {
    ArgsFront(c, dir, cdRom);
    ArgsVideo(c, dir, cdRom);
    ArgsTail(c, dir, cdRom);
  }

  /** The argument list as five named parts, with the lengths that locate them. */
  lemma ArgsParts(c: Config, dir: Path, cdRom: W.Option<Path>)
    ensures var m := c.machine;
            ConstructLaunchCommand(c, dir, cdRom).args
              == Prefix(m) + (KvmTokens(m.kvm) + (FirmwareTokens(m.uefi, dir) + (VideoTokens(m.video) + Tail(m, dir, cdRom))))
    ensures var m := c.machine;
            |Prefix(m)| + |KvmTokens(m.kvm)| + |FirmwareTokens(m.uefi, dir)| == VideoStart(m)
  {
  }

  lemma ArgsFront(c: Config, dir: Path, cdRom: W.Option<Path>)
    ensures ConstructLaunchCommand(c, dir, cdRom).args[..VideoStart(c.machine)] == Front(c.machine, dir)
  {
    var m := c.machine;
    ArgsParts(c, dir, cdRom);
    SplitFive(Prefix(m), KvmTokens(m.kvm), FirmwareTokens(m.uefi, dir), VideoTokens(m.video), Tail(m, dir, cdRom));
  }

  lemma ArgsVideo(c: Config, dir: Path, cdRom: W.Option<Path>)
    ensures var v := VideoStart(c.machine);
            ConstructLaunchCommand(c, dir, cdRom).args[v..v + VideoLength(c.machine.video)] == VideoTokens(c.machine.video)
  {
    var m := c.machine;
    ArgsParts(c, dir, cdRom);
    var V := VideoTokens(m.video);
    assert |V| == VideoLength(m.video);
    SplitFive(Prefix(m), KvmTokens(m.kvm), FirmwareTokens(m.uefi, dir), V, Tail(m, dir, cdRom));
  }

  lemma ArgsTail(c: Config, dir: Path, cdRom: W.Option<Path>)
    ensures var v := VideoStart(c.machine);
            ConstructLaunchCommand(c, dir, cdRom).args[v + VideoLength(c.machine.video)..] == Tail(c.machine, dir, cdRom)
  {
    var m := c.machine;
    ArgsParts(c, dir, cdRom);
    var V := VideoTokens(m.video);
    assert |V| == VideoLength(m.video);
    SplitFive(Prefix(m), KvmTokens(m.kvm), FirmwareTokens(m.uefi, dir), V, Tail(m, dir, cdRom));
  }

  /** A right-nested concatenation of five parts splits back into the first three, the fourth and the fifth. */
  lemma SplitFive<T>(p: seq<T>, k: seq<T>, f: seq<T>, v: seq<T>, r: seq<T>)
    ensures var s := p + (k + (f + (v + r)));
            var n := |p| + |k| + |f|;
            s[..n] == p + k + f && s[n..n + |v|] == v && s[n + |v|..] == r
  {
    Reassociate(p, k, f, v + r);
    SliceThree(p + k + f, v, r);
  }

  lemma Reassociate<T>(p: seq<T>, k: seq<T>, f: seq<T>, r: seq<T>)
    ensures p + (k + (f + r)) == (p + k + f) + r
  {
    assert p + (k + (f + r)) == (p + k) + (f + r);
  }

  lemma SliceThree<T>(a: seq<T>, b: seq<T>, c: seq<T>)
    ensures (a + (b + c))[..|a|] == a
    ensures (a + (b + c))[|a|..|a| + |b|] == b
    ensures (a + (b + c))[|a| + |b|..] == c
  {
  }

  /** The list always opens with the cpu count and the memory size in megabytes. */
  lemma LaunchArgsPrefix(c: Config, dir: Path, cdRom: W.Option<Path>)
    ensures var args := ConstructLaunchCommand(c, dir, cdRom).args;
            args[..4] == ["-smp", NatToString(c.machine.cpus), "-m", NatToString(c.machine.memory) + "M"]
  {
    var args := ConstructLaunchCommand(c, dir, cdRom).args;
    ArgsFront(c, dir, cdRom);
    assert args[..4] == args[..VideoStart(c.machine)][..4];
  }

  /** The acceleration flag follows the memory pair exactly when kvm is enabled. */
  lemma KvmFlagPosition(c: Config, dir: Path, cdRom: W.Option<Path>)
    ensures var args := ConstructLaunchCommand(c, dir, cdRom).args;
            c.machine.kvm <==> args[4] == "-enable-kvm"
  {
    var args := ConstructLaunchCommand(c, dir, cdRom).args;
    var v := VideoStart(c.machine);
    ArgsSplit(c, dir, cdRom);
    if v > 4 {
      assert args[4] == args[..v][4];
    } else {
      assert args[4] == args[v..v + VideoLength(c.machine.video)][0];
    }
  }

  /** With uefi, the shared firmware drive and then the machine's variable store come next. */
  lemma FirmwareDrivesPosition(c: Config, dir: Path, cdRom: W.Option<Path>)
    requires c.machine.uefi
    ensures var args := ConstructLaunchCommand(c, dir, cdRom).args;
            var f := VideoStart(c.machine) - 4;
            args[f..f + 4] == ["-drive", OvmfCodeDrive, "-drive", OvmfVarsDrive(dir)]
  {
    var args := ConstructLaunchCommand(c, dir, cdRom).args;
    var v := VideoStart(c.machine);
    ArgsFront(c, dir, cdRom);
    assert args[v - 4..v] == args[..v][v - 4..v];
  }

  /** After the video tokens comes the CD-ROM pair, when an image is given. */
  lemma CdRomPosition(c: Config, dir: Path, cdRom: W.Option<Path>)
    requires cdRom.Some?
    ensures var args := ConstructLaunchCommand(c, dir, cdRom).args;
            var k := VideoStart(c.machine) + VideoLength(c.machine.video);
            args[k..k + 2] == ["-cdrom", cdRom.value]
  {
    var args := ConstructLaunchCommand(c, dir, cdRom).args;
    var k := VideoStart(c.machine) + VideoLength(c.machine.video);
    ArgsTail(c, dir, cdRom);
    var t := Tail(c.machine, dir, cdRom);
    assert args[k..] == t;
    assert t[..2] == ["-cdrom", cdRom.value];
    PrefixOfSuffix(args, k, 2);
  }

  /** Taking `n` elements from the suffix at `k` is the slice from `k` to `k + n`. */
  lemma PrefixOfSuffix<T>(s: seq<T>, k: nat, n: nat)
    requires k + n <= |s|
    ensures s[k..k + n] == s[k..][..n]
  {
  }

}

=== FILE: launch_props.dfy ===
/**
  Properties of the hypervisor argument list: an independent reader that
  recovers the configuration from the tokens (so nothing is lost or
  ambiguous), how often each option occurs, and the launch of a default
  machine.
*/
module LaunchProps {
  import opened Paths
  import opened Decimal
  import opened QemuConfig
  import opened Launch
  import W = Wrappers

  /** What the hypervisor is told: the configuration as seen through its arguments. */
  datatype LaunchView = LaunchView(
    cpus: nat,
    memory: nat,
    kvm: bool,
    firmwareVars: W.Option<string>,
    video: VideoOption,
    cdRom: W.Option<Path>,
    disk: Path)

  /** The view a machine in `dir`, booted with `cdRom`, should present. */
  function ViewOf(c: Config, dir: Path, cdRom: W.Option<Path>): LaunchView {
    var m := c.machine;
    LaunchView(
      m.cpus, m.memory, m.kvm,
      if m.uefi then W.Some(OvmfVarsDrive(dir)) else W.None,
      m.video, cdRom, ResolveDiskPath(m.disk, dir))
  }

  /**
    The value of `-vga`. The reader keeps its own table, sharing no code
    with the configuration schema, so that it checks the launcher
    independently.
  */
  function ParseVga(s: string): W.Option<VideoOption> {
    if s == "std" then W.Some(Std)
    else if s == "virtio" then W.Some(VirtIo)
    else if s == "qxl" then W.Some(Qxl)
    else if s == "none" then W.Some(VideoOption.None)
    else W.None
  }

  /** A memory size written as `<megabytes>M`. */
  function ParseMemory(s: string): W.Option<nat> {
    if |s| > 0 && s[|s| - 1] == 'M' then ParseNat(s[..|s| - 1]) else W.None
  }

  /** Reads the optional acceleration flag. */
  function ParseKvm(s: seq<string>): (bool, seq<string>) {
    if |s| > 0 && s[0] == "-enable-kvm" then (true, s[1..]) else (false, s)
  }

  /** Reads the optional pair of firmware drives, returning the variable-store drive. */
  function ParseFirmware(s: seq<string>): (W.Option<string>, seq<string>) {
    if |s| >= 4 && s[0] == "-drive" && s[1] == OvmfCodeDrive && s[2] == "-drive" then (W.Some(s[3]), s[4..])
    else (W.None, s)
  }

  /** Reads the video mode, which for `none` must be followed by `-nographic`. */
  function ParseVideoTokens(s: seq<string>): W.Option<(VideoOption, seq<string>)> {
    if |s| < 2 || s[0] != "-vga" then W.None
    else
      match ParseVga(s[1])
      case None => W.None
      case Some(v) =>
        if v != VideoOption.None then W.Some((v, s[2..]))
        else if |s| >= 3 && s[2] == "-nographic" then W.Some((v, s[3..]))
        else W.None
  }

  /** Reads the trailing `[-cdrom path] disk` tokens. */
  function ParseTail(rest: seq<string>): W.Option<(W.Option<Path>, Path)> {
    if |rest| == 1 then W.Some((W.None, rest[0]))
    else if |rest| == 3 && rest[0] == "-cdrom" then W.Some((W.Some(rest[1]), rest[2]))
    else W.None
  }

  /**
    Reads an argument list in the layout the launcher writes, group by
    group; anything else is rejected.
  */
  function ParseLaunchArgs(args: seq<string>): W.Option<LaunchView> {
    if |args| < 4 || args[0] != "-smp" || args[2] != "-m" then W.None
    else
      var cpus := ParseNat(args[1]);
      var memory := ParseMemory(args[3]);
      if cpus.None? || memory.None? then W.None
      else ParseOptions(cpus.value, memory.value, args[4..])
  }

  /** Reads the tokens after the cpu and memory pairs. */
  function ParseOptions(cpus: nat, memory: nat, rest: seq<string>): W.Option<LaunchView> {
    var (kvm, afterKvm) := ParseKvm(rest);
    var (vars, afterFirmware) := ParseFirmware(afterKvm);
    var video := ParseVideoTokens(afterFirmware);
    if video.None? then W.None
    else
      var tail := ParseTail(video.value.1);
      if tail.None? then W.None
      else W.Some(LaunchView(cpus, memory, kvm, vars, video.value.0, tail.value.0, tail.value.1))
  }

  lemma ParseMemoryRoundTrip(n: nat)
    ensures ParseMemory(NatToString(n) + "M") == W.Some(n)
  {
    var s := NatToString(n) + "M";
    assert s[..|s| - 1] == NatToString(n);
    ParseNatRoundTrip(n);
  }

  lemma ParseKvmOf(kvm: bool, rest: seq<string>)
    requires |rest| > 0 && rest[0] != "-enable-kvm"
    ensures ParseKvm(KvmTokens(kvm) + rest) == (kvm, rest)
  {
    if kvm {
      assert (KvmTokens(kvm) + rest)[1..] == rest;
    } else {
      assert KvmTokens(kvm) + rest == rest;
    }
  }

  lemma ParseFirmwareOf(uefi: bool, dir: Path, rest: seq<string>)
    requires |rest| > 0 && rest[0] == "-vga"
    ensures ParseFirmware(FirmwareTokens(uefi, dir) + rest)
            == (if uefi then W.Some(OvmfVarsDrive(dir)) else W.None, rest)
  {
    var s := FirmwareTokens(uefi, dir) + rest;
    if uefi {
      assert s[0] == "-drive" && s[1] == OvmfCodeDrive && s[2] == "-drive" && s[3] == OvmfVarsDrive(dir);
      assert s[4..] == rest;
    } else {
      assert s == rest;
      assert "-vga" != "-drive";
    }
  }

  lemma ParseVideoOf(video: VideoOption, rest: seq<string>)
    ensures ParseVideoTokens(VideoTokens(video) + rest) == W.Some((video, rest))
  {
    var s := VideoTokens(video) + rest;
    if video == VideoOption.None {
      assert s[3..] == rest;
    } else {
      assert s[2..] == rest;
    }
  }

  /**
    Reading back the launcher's argument list recovers every setting: cpu
    count, memory, acceleration, the firmware variable store, video mode,
    CD-ROM and the resolved disk.
  */
  lemma LaunchArgsRoundTrip(c: Config, dir: Path, cdRom: W.Option<Path>)
    ensures ParseLaunchArgs(ConstructLaunchCommand(c, dir, cdRom).args) == W.Some(ViewOf(c, dir, cdRom))
  {
    ParseHeaderOf(c.machine, Options(c.machine, dir, cdRom));
    ParseOptionsOf(c, dir, cdRom);
  }

  lemma ParseHeaderOf(m: Machine, rest: seq<string>)
    ensures ParseLaunchArgs(Prefix(m) + rest) == ParseOptions(m.cpus, m.memory, rest)
  {
    var args := Prefix(m) + rest;
    assert args[0] == "-smp" && args[1] == NatToString(m.cpus);
    assert args[2] == "-m" && args[3] == NatToString(m.memory) + "M";
    assert args[4..] == rest;
    ParseNatRoundTrip(m.cpus);
    ParseMemoryRoundTrip(m.memory);
  }

  lemma ParseTailOf(cdRom: W.Option<Path>, disk: Path)
    ensures ParseTail(CdRomTokens(cdRom) + [disk]) == W.Some((cdRom, disk))
  {
  }

  /** The options parse group by group into the view. */
  lemma ParseOptionsSteps(cpus: nat, memory: nat, rest: seq<string>, afterKvm: seq<string>,
                          afterFirmware: seq<string>, tail: seq<string>, view: LaunchView)
    requires view.cpus == cpus && view.memory == memory
    requires ParseKvm(rest) == (view.kvm, afterKvm)
    requires ParseFirmware(afterKvm) == (view.firmwareVars, afterFirmware)
    requires ParseVideoTokens(afterFirmware) == W.Some((view.video, tail))
    requires ParseTail(tail) == W.Some((view.cdRom, view.disk))
    ensures ParseOptions(cpus, memory, rest) == W.Some(view)
  {
  }

  lemma ParseOptionsOf(c: Config, dir: Path, cdRom: W.Option<Path>)
    ensures ParseOptions(c.machine.cpus, c.machine.memory, Options(c.machine, dir, cdRom)) == W.Some(ViewOf(c, dir, cdRom))
  {
    var m := c.machine;
    var tail := Tail(m, dir, cdRom);
    var afterFirmware := VideoTokens(m.video) + tail;
    var afterKvm := FirmwareTokens(m.uefi, dir) + afterFirmware;
    assert afterFirmware[0] == "-vga";
    assert afterKvm[0] == "-drive" || afterKvm[0] == "-vga";
    ParseTailOf(cdRom, ResolveDiskPath(m.disk, dir));
    ParseVideoOf(m.video, tail);
    ParseFirmwareOf(m.uefi, dir, afterFirmware);
    ParseKvmOf(m.kvm, afterKvm);
    ParseOptionsSteps(m.cpus, m.memory, Options(m, dir, cdRom), afterKvm, afterFirmware, tail,
                      ViewOf(c, dir, cdRom));
  }

  /** Two launches with the same arguments present the same settings. */
  lemma LaunchArgsDetermineView(c1: Config, c2: Config, dir: Path, cd1: W.Option<Path>, cd2: W.Option<Path>)
    requires ConstructLaunchCommand(c1, dir, cd1) == ConstructLaunchCommand(c2, dir, cd2)
    ensures ViewOf(c1, dir, cd1) == ViewOf(c2, dir, cd2)
  {
    LaunchArgsRoundTrip(c1, dir, cd1);
    LaunchArgsRoundTrip(c2, dir, cd2);
  }

  /** The number of occurrences of token `t` in `s`. */
  function Count(t: string, s: seq<string>): nat {
    multiset(s)[t]
  }

  /** A token that the hypervisor reads as an option rather than a value. */
  predicate IsOption(t: string) {
    |t| > 0 && t[0] == '-'
  }

  /** How often `t` occurs among the paths supplied by the user: the CD-ROM image and the disk. */
  function UserPathCount(t: string, c: Config, dir: Path, cdRom: W.Option<Path>): nat {
    (if cdRom == W.Some(t) then 1 else 0) + (if ResolveDiskPath(c.machine.disk, dir) == t then 1 else 0)
  }

  /** The argument list, as a bag of tokens, is the union of its groups. */
  lemma ArgsMultiset(c: Config, dir: Path, cdRom: W.Option<Path>)
    ensures var m := c.machine;
            multiset(ConstructLaunchCommand(c, dir, cdRom).args)
            == multiset(Prefix(m)) + multiset(KvmTokens(m.kvm)) + multiset(FirmwareTokens(m.uefi, dir))
               + multiset(VideoTokens(m.video)) + multiset(CdRomTokens(cdRom))
               + multiset{ResolveDiskPath(m.disk, dir)}
  {
    var m := c.machine;
    var args := ConstructLaunchCommand(c, dir, cdRom).args;
    assert args == Prefix(m) + (KvmTokens(m.kvm) + (FirmwareTokens(m.uefi, dir)
                   + (VideoTokens(m.video) + (CdRomTokens(cdRom) + [ResolveDiskPath(m.disk, dir)]))));
  }

  /** The opening pairs hold no option but `-smp` and `-m`: their values are numerals. */
  lemma PrefixOptionCount(t: string, m: Machine)
    requires IsOption(t)
    ensures Count(t, Prefix(m)) == (if t == "-smp" then 1 else 0) + (if t == "-m" then 1 else 0)
  {
    var cpus := NatToString(m.cpus);
    var memory := NatToString(m.memory) + "M";
    assert cpus != t by { assert IsDigit(cpus[0]); }
    assert memory != t by { assert IsDigit(memory[0]); }
    assert multiset(Prefix(m)) == multiset{"-smp", cpus, "-m", memory};
  }

  /** How often the launcher itself writes option `t` for machine `m`. */
  function LauncherCount(t: string, m: Machine, cdRom: W.Option<Path>): nat {
    (if t == "-smp" then 1 else 0)
    + (if t == "-m" then 1 else 0)
    + (if m.kvm && t == "-enable-kvm" then 1 else 0)
    + (if m.uefi && t == "-drive" then 2 else 0)
    + (if t == "-vga" then 1 else 0)
    + (if m.video == VideoOption.None && t == "-nographic" then 1 else 0)
    + (if cdRom.Some? && t == "-cdrom" then 1 else 0)
  }

  /** Option tokens in the argument list are the launcher's own ones plus any that the user's paths spell. */
  lemma OptionCount(t: string, c: Config, dir: Path, cdRom: W.Option<Path>)
    requires IsOption(t)
    ensures Count(t, ConstructLaunchCommand(c, dir, cdRom).args)
            == LauncherCount(t, c.machine, cdRom) + UserPathCount(t, c, dir, cdRom)
  {
    ArgsCount(t, c, dir, cdRom);
    GroupCounts(t, c.machine, dir, cdRom);
  }

  /** The occurrences of a token in the argument list, group by group. */
  lemma ArgsCount(t: string, c: Config, dir: Path, cdRom: W.Option<Path>)
    ensures var m := c.machine;
            Count(t, ConstructLaunchCommand(c, dir, cdRom).args)
            == Count(t, Prefix(m)) + Count(t, KvmTokens(m.kvm)) + Count(t, FirmwareTokens(m.uefi, dir))
               + Count(t, VideoTokens(m.video)) + Count(t, CdRomTokens(cdRom))
               + (if ResolveDiskPath(m.disk, dir) == t then 1 else 0)
  {
    var m := c.machine;
    ArgsMultiset(c, dir, cdRom);
    assert multiset{ResolveDiskPath(m.disk, dir)}[t] == if ResolveDiskPath(m.disk, dir) == t then 1 else 0;
  }

  /** The groups other than the disk hold the launcher's options and the CD-ROM path. */
  lemma GroupCounts(t: string, m: Machine, dir: Path, cdRom: W.Option<Path>)
    requires IsOption(t)
    ensures Count(t, Prefix(m)) + Count(t, KvmTokens(m.kvm)) + Count(t, FirmwareTokens(m.uefi, dir))
            + Count(t, VideoTokens(m.video)) + Count(t, CdRomTokens(cdRom))
            == LauncherCount(t, m, cdRom) + (if cdRom == W.Some(t) then 1 else 0)
  {
    CdRomOptionCount(t, cdRom);
    PrefixOptionCount(t, m);
    FirmwareOptionCount(t, m.uefi, dir);
    VideoOptionCount(t, m.video);
    assert Count(t, KvmTokens(m.kvm)) == if m.kvm && t == "-enable-kvm" then 1 else 0;
  }

  lemma CdRomOptionCount(t: string, cdRom: W.Option<Path>)
    ensures Count(t, CdRomTokens(cdRom))
            == (if cdRom.Some? && t == "-cdrom" then 1 else 0) + (if cdRom == W.Some(t) then 1 else 0)
  {
    if cdRom.Some? {
      assert multiset(CdRomTokens(cdRom)) == multiset{"-cdrom", cdRom.value};
    }
  }

  /** Of the video tokens only `-vga`, and `-nographic` when headless, are options. */
  lemma VideoOptionCount(t: string, video: VideoOption)
    requires IsOption(t)
    ensures Count(t, VideoTokens(video))
            == (if t == "-vga" then 1 else 0) + (if video == VideoOption.None && t == "-nographic" then 1 else 0)
  {
    match video
    case Std => assert multiset(VideoTokens(video)) == multiset{"-vga", "std"};
    case VirtIo => assert multiset(VideoTokens(video)) == multiset{"-vga", "virtio"};
    case Qxl => assert multiset(VideoTokens(video)) == multiset{"-vga", "qxl"};
    case None => assert multiset(VideoTokens(video)) == multiset{"-vga", "none", "-nographic"};
  }

  lemma OvmfCodeDriveIsValue()
    ensures !IsOption(OvmfCodeDrive)
  {
  }

  /** Both firmware drive specifications are values, not options. */
  lemma FirmwareOptionCount(t: string, uefi: bool, dir: Path)
    requires IsOption(t)
    ensures Count(t, FirmwareTokens(uefi, dir)) == (if uefi && t == "-drive" then 2 else 0)
  {
    if uefi {
      assert OvmfVarsDrive(dir)[0] == 'i';
      OvmfCodeDriveIsValue();
      assert multiset(FirmwareTokens(uefi, dir)) == multiset{"-drive", OvmfCodeDrive, "-drive", OvmfVarsDrive(dir)};
    }
  }

  /** `-enable-kvm` occurs once when acceleration is on, otherwise only if a user path spells it. */
  lemma KvmFlagCount(c: Config, dir: Path, cdRom: W.Option<Path>)
    ensures Count("-enable-kvm", ConstructLaunchCommand(c, dir, cdRom).args)
            == (if c.machine.kvm then 1 else 0) + UserPathCount("-enable-kvm", c, dir, cdRom)
  {
    OptionCount("-enable-kvm", c, dir, cdRom);
  }

  /** `-drive` occurs twice with uefi firmware and never without, user paths aside. */
  lemma DriveFlagCount(c: Config, dir: Path, cdRom: W.Option<Path>)
    ensures Count("-drive", ConstructLaunchCommand(c, dir, cdRom).args)
            == (if c.machine.uefi then 2 else 0) + UserPathCount("-drive", c, dir, cdRom)
  {
    OptionCount("-drive", c, dir, cdRom);
  }

  /** `-nographic` occurs exactly for the headless video mode, user paths aside. */
  lemma NographicFlagCount(c: Config, dir: Path, cdRom: W.Option<Path>)
    ensures Count("-nographic", ConstructLaunchCommand(c, dir, cdRom).args)
            == (if c.machine.video == VideoOption.None then 1 else 0) + UserPathCount("-nographic", c, dir, cdRom)
  {
    OptionCount("-nographic", c, dir, cdRom);
  }

  /** `-cdrom` occurs once exactly when an image is given, user paths aside. */
  lemma CdRomFlagCount(c: Config, dir: Path, cdRom: W.Option<Path>)
    ensures Count("-cdrom", ConstructLaunchCommand(c, dir, cdRom).args)
            == (if cdRom.Some? then 1 else 0) + UserPathCount("-cdrom", c, dir, cdRom)
  {
    OptionCount("-cdrom", c, dir, cdRom);
  }

  /**
    When neither the CD-ROM image nor the resolved disk reads as an option,
    each optional flag is present exactly when its setting asks for it.
  */
  lemma FlagsMatchSettings(c: Config, dir: Path, cdRom: W.Option<Path>)
    requires !IsOption(ResolveDiskPath(c.machine.disk, dir))
    requires cdRom.Some? ==> !IsOption(cdRom.value)
    ensures var args := ConstructLaunchCommand(c, dir, cdRom).args;
            && ("-enable-kvm" in args <==> c.machine.kvm)
            && ("-drive" in args <==> c.machine.uefi)
            && ("-nographic" in args <==> c.machine.video == VideoOption.None)
            && ("-cdrom" in args <==> cdRom.Some?)
  {
    KvmFlagCount(c, dir, cdRom);
    PresentIffCounted("-enable-kvm", c, dir, cdRom, if c.machine.kvm then 1 else 0);
    DriveFlagCount(c, dir, cdRom);
    PresentIffCounted("-drive", c, dir, cdRom, if c.machine.uefi then 2 else 0);
    NographicFlagCount(c, dir, cdRom);
    PresentIffCounted("-nographic", c, dir, cdRom, if c.machine.video == VideoOption.None then 1 else 0);
    CdRomFlagCount(c, dir, cdRom);
    PresentIffCounted("-cdrom", c, dir, cdRom, if cdRom.Some? then 1 else 0);
  }

  /** When no user path reads as an option, an option occurs exactly when the launcher put it there. */
  lemma PresentIffCounted(t: string, c: Config, dir: Path, cdRom: W.Option<Path>, n: nat)
    requires IsOption(t)
    requires !IsOption(ResolveDiskPath(c.machine.disk, dir))
    requires cdRom.Some? ==> !IsOption(cdRom.value)
    requires Count(t, ConstructLaunchCommand(c, dir, cdRom).args) == n + UserPathCount(t, c, dir, cdRom)
    ensures t in ConstructLaunchCommand(c, dir, cdRom).args <==> n > 0
  {
    assert UserPathCount(t, c, dir, cdRom) == 0;
  }

  /**
    A default machine keeps its disk as `disk.qcow2` beside its
    configuration and launches with two cpus, 2048 MB, acceleration and the
    standard adapter.
  */
  lemma DefaultLaunch(dir: Path)
    ensures !IsAbsolute(DefaultMachine().disk)
    ensures ResolveDiskPath(DefaultMachine().disk, dir) == Join(dir, "./disk.qcow2")
    ensures ConstructLaunchCommand(DefaultConfig(), dir, W.None).args
            == ["-smp", "2", "-m", "2048M", "-enable-kvm", "-vga", "std", Join(dir, "./disk.qcow2")]
  {
    assert DigitChar(2) == '2' && DigitChar(0) == '0' && DigitChar(4) == '4' && DigitChar(8) == '8';
    assert NatToString(2) == "2";
    assert NatToString(20) == "20";
    assert NatToString(204) == "204";
    assert NatToString(2048) == "2048";
    var m := DefaultMachine();
    assert NatToString(m.memory) + "M" == "2048M";
    assert Prefix(m) == ["-smp", "2", "-m", "2048M"];
    assert Front(m, dir) == ["-smp", "2", "-m", "2048M", "-enable-kvm"];
  }
}

=== FILE: paths.dfy ===
/**
  Unix paths as plain strings, with the two operations of Rust's `std::path`
  the program relies on: `Path::join` (through `PathBuf::push`) and
  `Path::file_name`, together with `Path::is_absolute`.
*/
module Paths {

  type Path = string

  /** On Unix a path is absolute exactly when it starts at the root. */
  predicate IsAbsolute(p: Path) {
    |p| > 0 && p[0] == '/'
  }

  /** A single path component naming an entry of a directory. */
  predicate IsFileName(s: string) {
    |s| > 0 && '/' !in s && s != "." && s != ".."
  }

  /**
    `base.join(rel)`: an absolute `rel` replaces `base`; otherwise `rel` is
    appended, with a separator inserted only when `base` is non-empty and does
    not already end in one.
  */
  function Join(base: Path, rel: Path): (r: Path)
    ensures IsAbsolute(rel) ==> r == rel
    ensures !IsAbsolute(rel) ==> |base| + |rel| <= |r| <= |base| + |rel| + 1
    ensures !IsAbsolute(rel) ==> r[..|base|] == base && r[|r| - |rel|..] == rel
    ensures !IsAbsolute(rel) && |base| > 0 ==> r[|r| - |rel| - 1] == '/'
    ensures !IsAbsolute(rel) && |r| == |base| + |rel| + 1 ==> r[|base|] == '/'
    ensures !IsAbsolute(rel) ==> (|r| == |base| + |rel| <==> |base| == 0 || base[|base| - 1] == '/')
  {
    if IsAbsolute(rel) then rel
    else if |base| == 0 || base[|base| - 1] == '/' then base + rel
    else base + "/" + rel
  }

  /**
    The final component of a path: the longest suffix free of separators.
    This matches `Path::file_name` for the paths the program builds, which
    never end in a separator, `.` or `..`.
  */
  function FileName(p: Path): (r: string)
    ensures '/' !in r
    ensures |r| <= |p| && r == p[|p| - |r|..]
    ensures |r| < |p| ==> p[|p| - |r| - 1] == '/'
    decreases |p|
  {
    if |p| == 0 || p[|p| - 1] == '/' then ""
    else FileName(p[..|p| - 1]) + [p[|p| - 1]]
  }

  /** Joining a file name onto a directory and taking the file name back yields it. */
  lemma FileNameOfJoin(base: Path, name: string)
    requires IsFileName(name)
    ensures FileName(Join(base, name)) == name
  {
    var p := Join(base, name);
    assert p[|p| - |name|..] == name;
  }

  /** The index of the first separator at or after `i`, or `|p|` when there is none. */
  function SeparatorFrom(p: Path, i: nat): (j: nat)
    requires i <= |p|
    ensures i <= j <= |p|
    ensures j < |p| ==> p[j] == '/'
    decreases |p| - i
  {
    if i == |p| || p[i] == '/' then i else SeparatorFrom(p, i + 1)
  }

  /**
    The components of a path as the operating system walks it: the non-empty
    runs between separators, in order. Repeated and trailing separators
    contribute nothing; `.` and `..` are kept as they are.
  */
  function Segments(p: Path): (r: seq<string>)
    ensures forall i :: 0 <= i < |r| ==> |r[i]| > 0
    decreases |p|
  {
    if |p| == 0 then []
    else if p[0] == '/' then Segments(p[1..])
    else
      var j := SeparatorFrom(p, 0);
      [p[..j]] + Segments(p[j..])
  }

  /** No separator lies before the first one. */
  lemma {:induction false} SeparatorFromIsFirst(p: Path, i: nat, k: nat)
    requires i <= k <= |p| && k < SeparatorFrom(p, i)
    ensures p[k] != '/'
    decreases |p| - i
  {
    if k > i {
      SeparatorFromIsFirst(p, i + 1, k);
    }
  }

  /** Every segment is free of separators. */
  lemma {:induction false} SegmentsAreComponents(p: Path, n: nat)
    requires n < |Segments(p)|
    ensures '/' !in Segments(p)[n]
    decreases |p|
  {
    if p[0] == '/' {
      SegmentsAreComponents(p[1..], n);
    } else {
      var j := SeparatorFrom(p, 0);
      if n == 0 {
        forall k | 0 <= k < j
          ensures p[..j][k] != '/'
        {
          SeparatorFromIsFirst(p, 0, k);
        }
      } else {
        SegmentsAreComponents(p[j..], n - 1);
      }
    }
  }

  /** A separator-free, non-empty string is a single segment. */
  lemma SegmentsOfComponent(s: string)
    requires |s| > 0 && '/' !in s
    ensures Segments(s) == [s]
  {
    assert s[..SeparatorFrom(s, 0)] == s;
  }

  /** Where the first separator of `a + q` lies, when `a` has one or `q` starts with one. */
  lemma {:induction false} SeparatorFromAppend(a: Path, q: Path, i: nat)
    requires i <= |a|
    requires SeparatorFrom(a, i) < |a| || (|q| > 0 && q[0] == '/')
    ensures SeparatorFrom(a + q, i) == SeparatorFrom(a, i)
    decreases |a| - i
  {
    if i < |a| && a[i] != '/' {
      SeparatorFromAppend(a, q, i + 1);
    }
  }

  /** The first segment of a path that starts inside a run, when a separator ends the run. */
  lemma SegmentsFirstRun(a: Path, q: Path)
    requires |a| > 0 && a[0] != '/'
    requires SeparatorFrom(a, 0) < |a| || (|q| > 0 && q[0] == '/')
    ensures var j := SeparatorFrom(a, 0);
            Segments(a + q) == [a[..j]] + Segments(a[j..] + q)
  {
    var j := SeparatorFrom(a, 0);
    var p := a + q;
    SeparatorFromAppend(a, q, 0);
    assert |p| > 0 && p[0] != '/';
    assert Segments(p) == [p[..j]] + Segments(p[j..]);
    assert p[..j] == a[..j];
    assert p[j..] == a[j..] + q;
  }

  /** Segments split at a separator: the segments of the two sides, in order. */
  lemma {:induction false} SegmentsAroundSeparator(a: Path, b: Path)
    ensures Segments(a + "/" + b) == Segments(a) + Segments(b)
    decreases |a|
  {
    var p := a + "/" + b;
    if |a| == 0 {
      assert p[1..] == b;
    } else if a[0] == '/' {
      assert p[1..] == a[1..] + "/" + b;
      SegmentsAroundSeparator(a[1..], b);
    } else {
      var j := SeparatorFrom(a, 0);
      assert p == a + ("/" + b);
      SegmentsFirstRun(a, "/" + b);
      assert a[j..] + ("/" + b) == a[j..] + "/" + b;
      SegmentsAroundSeparator(a[j..], b);
    }
  }

  /** A trailing separator adds no segment. */
  lemma SegmentsDropTrailing(a: Path)
    ensures Segments(a + "/") == Segments(a)
  {
    assert a + "/" == a + "/" + "";
    SegmentsAroundSeparator(a, "");
  }

  /** Joining a relative path appends its segments to the base's. */
  lemma SegmentsOfJoin(base: Path, rel: Path)
    requires !IsAbsolute(rel)
    ensures Segments(Join(base, rel)) == Segments(base) + Segments(rel)
  {
    if |base| > 0 && base[|base| - 1] == '/' {
      var b := base[..|base| - 1];
      assert base == b + "/";
      SegmentsDropTrailing(b);
      assert Join(base, rel) == b + "/" + rel;
      SegmentsAroundSeparator(b, rel);
    } else if |base| > 0 {
      SegmentsAroundSeparator(base, rel);
    }
  }
}

=== FILE: qemu_config.dfy ===
/**
  The per-machine configuration record (`machine.toml`): the `Config` and
  `Machine` structs, the `VideoOption` enum and `Machine::default`.
*/
module QemuConfig {
  import opened Paths

  /** Rust's `u32`: the width of the `cpus` and `memory` fields and of a disk size. */
  type U32 = n: nat | n < 0x1_0000_0000

  /** The emulated graphics adapter; `None` runs the machine headless. */
  datatype VideoOption = Std | VirtIo | Qxl | None

  /** One machine's virtualization parameters; `memory` is in megabytes. */
  datatype Machine = Machine(
    disk: Path,
    cpus: U32,
    memory: U32,
    kvm: bool,
    uefi: bool,
    video: VideoOption)

  /** The whole `machine.toml` document: a single `[machine]` table. */
  datatype Config = Config(machine: Machine)

  /** The configuration a freshly created machine receives. */
  function DefaultMachine(): Machine {
    Machine(
      disk := "./disk.qcow2",
      cpus := 2,
      memory := 2048,
      kvm := true,
      uefi := false,
      video := Std)
  }

  function DefaultConfig(): Config {
    Config(DefaultMachine())
  }
}

=== FILE: registry.dfy ===
/**
  The machine registry and the subcommands that act on it: listing the
  machines directory (`get_machines`), `ls`, running or removing one machine
  (`machine`), and creating one (`new_machine`).

  The machines directory is abstracted as a finite map from entry name to
  what the entry is. Reading it, creating a directory in it, writing a file
  and removing a directory tree become transitions of that map. The failures
  of `create_dir` and `write` that do not follow from the map itself are a
  parameter, and so is `order`: the entry names `read_dir` yields, in the
  order it yields them. On Unix the standard library ends a `ReadDir` at its
  first error, and both loops skip the error itself, so a read that fails
  part-way is an `order` that stops short of the whole directory. Spawned
  processes are returned as commands, never run.
*/
module Registry {
  import opened Wrappers
  import opened Paths
  import opened Decimal
  import Q = QemuConfig
  import S = Schema
  import L = Launch

  /** One entry of the machines directory, as the scan finds it. */
  datatype Entry =
    | File
      /** A directory; `config` is the text of its `machine.toml`, absent when missing or unreadable. */
    | Dir(config: Option<S.ConfigText>)
      /** An entry whose metadata cannot be read. */
    | MetadataError

  /** The user's home directory, whether the machines directory can be read, and its entries. */
  datatype Host = Host(home: Option<Path>, readable: bool, entries: map<string, Entry>)

  /** The machines directory, relative to the home directory. */
  const MachinesSubdir := ".local/share/qemubox/machines"
  const ConfigFileName := "machine.toml"
  const DiskFileName := "disk.qcow2"
  const DiskTool := "qemu-img"

  /** The program's error enum. */
  datatype Error =
    | NoHomeDirectory
    | ReadMachinesDirectoryFail
    | Deserialize(path: Path, cause: S.TomlError)
    | NewMachineDirectoryExists
    | CreateMachineDirectoryFail
    | WriteMachineTomlFail
    | NoMachineByName

  /** A machine found in the machines directory. */
  datatype MachineEntry = MachineEntry(name: string, config: Q.Config)

  /** The `machine` subcommands this model covers. */
  datatype MachineCommand =
    | Run(cdRom: Option<Path>, verbose: bool)
    | Remove(yes: bool)

  /** The top-level subcommands. */
  datatype CliCommand =
    | Ls
    | New(name: string, diskSize: Q.U32)
    | Machine(name: string, cmd: MachineCommand)

  /** Failures of `create_dir` and `write` that the directory map does not determine. */
  datatype Faults = Faults(createDirFails: bool, writeFails: bool)

  /** What a subcommand achieved or asked the operating system to do. */
  datatype Effect =
    | Listing(names: seq<string>)
    | Launched(command: L.Command)
    | Removed(dir: Path)
    | RemovalWarning(dir: Path)
    | DiskRequested(command: L.Command)

  /**
    How a subcommand ended: done, failed with an error, or stopped at the
    unfinished branch the program reaches when `machine` cannot list the
    machines (it panics there and reports nothing).
  */
  datatype Reply =
    | Done(effect: Effect)
    | Failed(error: Error)
    | Unfinished(cause: Error)

  datatype Outcome = Outcome(host: Host, reply: Reply)

  /** `get_machines_dir`: both checks happen before any entry is looked at. */
  function GetMachinesDir(h: Host): (r: Result<Path, Error>)
    ensures r.Success? <==> h.home.Some? && h.readable
    ensures r.Failure? ==> r.error == (if h.home.None? then NoHomeDirectory else ReadMachinesDirectoryFail)
  {
    match h.home
    case None => Failure(NoHomeDirectory)
    case Some(home) =>
      if !h.readable then Failure(ReadMachinesDirectoryFail)
      else Success(Join(home, MachinesSubdir))
  }

  /** The path of an entry's `machine.toml`. */
  function ConfigPath(machinesDir: Path, key: string): Path {
    Join(Join(machinesDir, key), ConfigFileName)
  }

  /** The name a listed machine gets: the file name of the entry's path. */
  function EntryName(machinesDir: Path, key: string): string {
    FileName(Join(machinesDir, key))
  }

  /** The entry is a directory whose `machine.toml` could be read. */
  predicate HasConfig(entries: map<string, Entry>, key: string) {
    key in entries && entries[key].Dir? && entries[key].config.Some?
  }

  /** The entry is a directory whose `machine.toml` reads and parses. */
  predicate Loadable(entries: map<string, Entry>, key: string) {
    HasConfig(entries, key) && S.FromStr(entries[key].config.value).Success?
  }

  /** The entry is a directory whose `machine.toml` reads but does not parse. */
  predicate Broken(entries: map<string, Entry>, key: string) {
    HasConfig(entries, key) && S.FromStr(entries[key].config.value).Failure?
  }

  /** The configuration a loadable entry holds. */
  function LoadedConfig(entries: map<string, Entry>, key: string): Q.Config
    requires Loadable(entries, key)
  {
    S.FromStr(entries[key].config.value).value
  }

  /** The listing entry a loadable directory contributes. */
  function Found(machinesDir: Path, entries: map<string, Entry>, key: string): MachineEntry
    requires Loadable(entries, key)
  {
    MachineEntry(EntryName(machinesDir, key), LoadedConfig(entries, key))
  }

  /**
    The loop of `get_machines` over the entries in `order`: skip what is not
    a directory with a readable `machine.toml`, list what parses, and stop
    at the first that does not.
  */
  function Scan(machinesDir: Path, entries: map<string, Entry>, order: seq<string>): (r: Result<seq<MachineEntry>, Error>)
    ensures r.Success? <==> forall i :: 0 <= i < |order| ==> !Broken(entries, order[i])
    ensures r.Success? ==> |r.value| <= |order|
    decreases |order|
  {
    if |order| == 0 then Success([])
    else
      var key := order[0];
      if !HasConfig(entries, key) then Scan(machinesDir, entries, order[1..])
      else
        match S.FromStr(entries[key].config.value)
        case Failure(e) => Failure(Deserialize(ConfigPath(machinesDir, key), e))
        case Success(c) =>
          var rest :- Scan(machinesDir, entries, order[1..]);
          Success([MachineEntry(EntryName(machinesDir, key), c)] + rest)
  }

  /** `get_machines`: the machines directory and the machines in it. */
  function GetMachines(h: Host, order: seq<string>): (r: Result<(Path, seq<MachineEntry>), Error>)
    ensures r.Success? <==> h.home.Some? && h.readable && forall i :: 0 <= i < |order| ==> !Broken(h.entries, order[i])
    ensures r.Success? ==> r.value.0 == Join(h.home.value, MachinesSubdir) && |r.value.1| <= |order|
  {
    var machinesDir :- GetMachinesDir(h);
    var machines :- Scan(machinesDir, h.entries, order);
    Success((machinesDir, machines))
  }

  /** The first machine of the listing with the given name. */
  function FindMachine(machines: seq<MachineEntry>, name: string): (r: Option<MachineEntry>)
    ensures r.Some? <==> exists i :: 0 <= i < |machines| && machines[i].name == name
    ensures r.Some? ==> r.value in machines && r.value.name == name
    decreases |machines|
  {
    if |machines| == 0 then None
    else if machines[0].name == name then Some(machines[0])
    else FindMachine(machines[1..], name)
  }

  function Names(machines: seq<MachineEntry>): (names: seq<string>)
    ensures |names| == |machines|
    ensures forall i :: 0 <= i < |machines| ==> names[i] == machines[i].name
  {
    seq(|machines|, i requires 0 <= i < |machines| => machines[i].name)
  }

  /** `ls`: the names of the machines, in listing order. */
  function ListMachines(h: Host, order: seq<string>): (o: Outcome)
    ensures o.host == h
    ensures o.reply.Failed? || (o.reply.Done? && o.reply.effect.Listing?)
  {
    match GetMachines(h, order)
    case Failure(e) => Outcome(h, Failed(e))
    case Success((_, machines)) => Outcome(h, Done(Listing(Names(machines))))
  }

  /**
    `machine <name> run|remove`: find the machine by name, then launch the
    hypervisor for it, or remove its directory when confirmed and only warn
    otherwise.
  */
  function MachineSubcommand(h: Host, order: seq<string>, name: string, cmd: MachineCommand): (o: Outcome)
    ensures o.host.home == h.home && o.host.readable == h.readable
    ensures o.host.entries.Keys <= h.entries.Keys
    ensures o.host != h ==> cmd == Remove(true) && o.reply.Done? && o.reply.effect.Removed?
    ensures o.reply.Failed? ==> o.reply.error == NoMachineByName
  {
    match GetMachines(h, order)
    case Failure(e) => Outcome(h, Unfinished(e))
    case Success((machinesDir, machines)) =>
      match FindMachine(machines, name)
      case None => Outcome(h, Failed(NoMachineByName))
      case Some(m) =>
        var dir := Join(machinesDir, m.name);
        match cmd
        case Run(cdRom, _) => Outcome(h, Done(Launched(L.ConstructLaunchCommand(m.config, dir, cdRom))))
        case Remove(yes) =>
          if yes then Outcome(h.(entries := h.entries - {m.name}), Done(Removed(dir)))
          else Outcome(h, Done(RemovalWarning(dir)))
  }

  /**
    The scan of `new_machine` compares the name, as a string, with each
    entry name `read_dir` yielded. A read error ends the iteration, so an
    entry it never reached is not compared.
  */
  predicate NameTaken(order: seq<string>, name: string) {
    name in order
  }

  /** Where `create_dir(machines_dir.join(name))` lands, as far as the machines directory can tell. */
  datatype Target =
      /** The entry `key` of the machines directory. */
    | Child(key: string)
      /**
        A path that already exists or can never be made: the machines
        directory itself, a path whose last component is `.` or `..`, or a
        path whose parent runs through an entry that does not exist.
      */
    | Refused
      /**
        A path the entries cannot place: an absolute path, one that climbs
        above the machines directory, one nested inside an entry, or one
        that passes through an entry that is not known to be a directory.
      */
    | Untracked

  /** How far a walk from the machines directory along the parent of a path has got. */
  datatype Place =
      /** At the machines directory itself. */
    | AtMachinesDir
      /** Inside the directory entry `key`. */
    | InEntry(key: string)
      /** A component does not exist, so the walk cannot go on. */
    | Blocked
      /** Somewhere the entries do not describe. */
    | Unknown

  /**
    One step of the walk. An entry counts as a directory only when the scan
    sees it as one: its metadata, read without following links, says so.
    Any other entry may be a link, so walking into it leads somewhere
    unknown.
  */
  function Step(entries: map<string, Entry>, place: Place, seg: string): Place {
    if seg == "." then place
    else
      match place
      case Blocked => Blocked
      case Unknown => Unknown
      case InEntry(_) => if seg == ".." then AtMachinesDir else Unknown
      case AtMachinesDir =>
        if seg == ".." then Unknown
        else if seg !in entries then Blocked
        else if entries[seg].Dir? then InEntry(seg)
        else Unknown
  }

  /** The walk along a sequence of segments; a blocked walk stays blocked. */
  function Walk(entries: map<string, Entry>, place: Place, segs: seq<string>): (r: Place)
    ensures place == Blocked ==> r == Blocked
    decreases |segs|
  {
    if |segs| == 0 then place
    else Walk(entries, Step(entries, place, segs[0]), segs[1..])
  }

  /**
    The operating system resolves `machines_dir.join(name)` segment by
    segment: repeated and trailing separators and `.` segments drop out, and
    `..` leaves a directory for its parent. The parent of the new directory
    must exist; its last segment is the directory `create_dir` makes. So
    `foo/`, `./foo` and `a/../foo`, for a directory `a`, all address the
    entry `foo`.
  */
  function TargetOf(entries: map<string, Entry>, name: string): (r: Target)
    ensures r.Child? ==> IsFileName(r.key)
  {
    if IsAbsolute(name) then Untracked
    else
      var segs := Segments(name);
      if |segs| == 0 || segs[|segs| - 1] == "." || segs[|segs| - 1] == ".." then Refused
      else
        match Walk(entries, AtMachinesDir, segs[..|segs| - 1])
        case AtMachinesDir =>
          SegmentsAreComponents(name, |segs| - 1);
          Child(segs[|segs| - 1])
        case Blocked => Refused
        case _ => Untracked
  }

  /**
    `create_dir` fails whatever the file system's state otherwise: the name
    addresses an entry that exists, or a path that always exists or cannot
    be made.
  */
  predicate CreateDirRefused(h: Host, name: string) {
    match TargetOf(h.entries, name)
    case Child(key) => key in h.entries
    case Refused => true
    case Untracked => false
  }

  /** Records a directory created for `name`; one the entries cannot place leaves the map as it is. */
  function AddEntry(h: Host, name: string, e: Entry): Host {
    match TargetOf(h.entries, name)
    case Child(key) => h.(entries := h.entries[key := e])
    case _ => h
  }

  /** `qemu-img create -f qcow2 <path> <size>M`. */
  function DiskImageCommand(path: Path, diskSize: Q.U32): L.Command {
    L.Command(DiskTool, ["create", "-f", "qcow2", path, NatToString(diskSize) + "M"])
  }

  /**
    `new_machine`: refuse a name already present, create the directory,
    write the default configuration into it, and ask for the disk image.
    The disk tool is started but not waited for, so success does not mean
    the image exists.
  */
  function NewMachine(h: Host, order: seq<string>, name: string, diskSize: Q.U32, faults: Faults): (o: Outcome)
    ensures o.host.home == h.home && o.host.readable == h.readable
    ensures forall k :: k in h.entries ==> k in o.host.entries && o.host.entries[k] == h.entries[k]
    ensures forall k :: k in o.host.entries && k !in h.entries ==> TargetOf(h.entries, name) == Child(k)
    ensures o.host != h ==> o.reply.Done? || o.reply == Failed(WriteMachineTomlFail)
  {
    match GetMachinesDir(h)
    case Failure(e) => Outcome(h, Failed(e))
    case Success(machinesDir) =>
      if NameTaken(order, name) then Outcome(h, Failed(NewMachineDirectoryExists))
      else if faults.createDirFails || CreateDirRefused(h, name) then Outcome(h, Failed(CreateMachineDirectoryFail))
      else if faults.writeFails then Outcome(AddEntry(h, name, Dir(None)), Failed(WriteMachineTomlFail))
      else
        var machineDir := Join(machinesDir, name);
        var config := S.ToStringPretty(Q.DefaultConfig());
        Outcome(AddEntry(h, name, Dir(Some(config))),
                Done(DiskRequested(DiskImageCommand(Join(machineDir, DiskFileName), diskSize))))
  }

  /** `main`: run one subcommand. */
  function Dispatch(h: Host, order: seq<string>, cmd: CliCommand, faults: Faults): (o: Outcome)
    ensures o.host.home == h.home && o.host.readable == h.readable
    ensures forall k :: k in h.entries && k in o.host.entries ==> o.host.entries[k] == h.entries[k]
  {
    match cmd
    case Ls => ListMachines(h, order)
    case New(name, diskSize) => NewMachine(h, order, name, diskSize, faults)
    case Machine(name, mc) => MachineSubcommand(h, order, name, mc)
  }
}

=== FILE: registry_props.dfy ===
/**
  Properties of the registry: what a listing contains, where it fails, how
  `machine` finds and acts on one machine, and how `new_machine` changes the
  machines directory — alone and in sequence with the other subcommands.
*/
module RegistryProps {
  import opened Wrappers
  import opened Paths
  import opened Decimal
  import Q = QemuConfig
  import S = Schema
  import L = Launch
  import opened Registry

  /** `order` lists every entry of the directory exactly once: a read that did not fail. */
  predicate Enumerates(order: seq<string>, entries: map<string, Entry>) {
    (forall i :: 0 <= i < |order| ==> order[i] in entries)
    && (forall k :: k in entries ==> k in order)
    && (forall i, j :: 0 <= i < j < |order| ==> order[i] != order[j])
  }

  /** `order` names only entries of the directory: a read, complete or cut short by an error. */
  predicate YieldsEntries(order: seq<string>, entries: map<string, Entry>) {
    forall i :: 0 <= i < |order| ==> order[i] in entries
  }

  /** Every entry of a real directory is named by a single path component. */
  predicate WellNamed(entries: map<string, Entry>) {
    forall k :: k in entries ==> IsFileName(k)
  }

  /** The machines directory of a host whose home is known. */
  function MachinesDirOf(h: Host): Path
    requires h.home.Some?
  {
    Join(h.home.value, MachinesSubdir)
  }

  // ---------------------------------------------------------------------------
  // The scan of the machines directory
  // ---------------------------------------------------------------------------

  /** Every machine in `ms` comes from a loadable entry among `keys`, with the configuration it holds. */
  predicate FromLoadable(md: Path, entries: map<string, Entry>, keys: seq<string>, ms: seq<MachineEntry>) {
    forall m :: m in ms ==> exists k :: k in keys && Loadable(entries, k) && m == Found(md, entries, k)
  }

  /** No two machines of the listing share a name. */
  predicate DistinctNames(ms: seq<MachineEntry>) {
    forall a, b :: 0 <= a < b < |ms| ==> ms[a].name != ms[b].name
  }

  /** Everything listed comes from a loadable entry, with the configuration that entry holds. */
  lemma {:induction false} ScanListsOnlyLoadable(md: Path, entries: map<string, Entry>, order: seq<string>)
    ensures var r := Scan(md, entries, order);
            r.Success? ==> FromLoadable(md, entries, order, r.value)
    decreases |order|
  {
    var r := Scan(md, entries, order);
    if |order| > 0 && r.Success? {
      var rest := Scan(md, entries, order[1..]);
      assert rest.Success?;
      ScanListsOnlyLoadable(md, entries, order[1..]);
      FromLoadableCons(md, entries, order, rest.value);
      if HasConfig(entries, order[0]) {
        assert r.value == [Found(md, entries, order[0])] + rest.value;
      } else {
        assert r.value == rest.value;
      }
    }
  }

  /** Extending the keys keeps a listing's provenance, and so does listing the first key's machine. */
  lemma FromLoadableCons(md: Path, entries: map<string, Entry>, order: seq<string>, rest: seq<MachineEntry>)
    requires |order| > 0 && FromLoadable(md, entries, order[1..], rest)
    ensures FromLoadable(md, entries, order, rest)
    ensures Loadable(entries, order[0]) ==> FromLoadable(md, entries, order, [Found(md, entries, order[0])] + rest)
  {
    forall m | m in rest
      ensures exists k :: k in order && Loadable(entries, k) && m == Found(md, entries, k)
    {
      var k :| k in order[1..] && Loadable(entries, k) && m == Found(md, entries, k);
      WitnessInOrder(md, entries, order, k, m);
    }
    if Loadable(entries, order[0]) {
      forall m | m in [Found(md, entries, order[0])] + rest
        ensures exists k :: k in order && Loadable(entries, k) && m == Found(md, entries, k)
      {
        if m in rest {
        } else {
          WitnessInOrder(md, entries, order, order[0], m);
        }
      }
    }
  }

  lemma WitnessInOrder(md: Path, entries: map<string, Entry>, order: seq<string>, k: string, m: MachineEntry)
    requires |order| > 0 && (k == order[0] || k in order[1..])
    requires Loadable(entries, k) && m == Found(md, entries, k)
    ensures exists k' :: k' in order && Loadable(entries, k') && m == Found(md, entries, k')
  {
    assert k in order;
  }

  /** Every loadable entry in the order is listed. */
  lemma {:induction false} ScanListsEveryLoadable(md: Path, entries: map<string, Entry>, order: seq<string>)
    ensures var r := Scan(md, entries, order);
            r.Success? ==> forall k :: k in order && Loadable(entries, k) ==> Found(md, entries, k) in r.value
    decreases |order|
  {
    var r := Scan(md, entries, order);
    if |order| > 0 && r.Success? {
      ScanListsEveryLoadable(md, entries, order[1..]);
      forall k | k in order && Loadable(entries, k)
        ensures Found(md, entries, k) in r.value
      {
        if k != order[0] {
          assert k in order[1..];
        }
      }
    }
  }

  /**
    `err` reports entry `i` of the order: the first whose configuration does
    not parse, with its `machine.toml` path and the parser's own error.
  */
  predicate FailsAt(md: Path, entries: map<string, Entry>, order: seq<string>, i: nat, err: Error) {
    && i < |order|
    && Broken(entries, order[i])
    && err == Deserialize(ConfigPath(md, order[i]), S.FromStr(entries[order[i]].config.value).error)
    && forall j :: 0 <= j < i ==> !Broken(entries, order[j])
  }

  /** A failed scan names the first entry, in the order, whose configuration does not parse. */
  lemma {:induction false} ScanFailsAtFirstBroken(md: Path, entries: map<string, Entry>, order: seq<string>)
    ensures var r := Scan(md, entries, order);
            r.Failure? ==> exists i: nat :: FailsAt(md, entries, order, i, r.error)
    decreases |order|
  {
    var r := Scan(md, entries, order);
    if |order| > 0 && r.Failure? {
      if Broken(entries, order[0]) {
        assert FailsAt(md, entries, order, 0, r.error);
      } else {
        var rest := Scan(md, entries, order[1..]);
        assert rest.Failure? && r.error == rest.error;
        ScanFailsAtFirstBroken(md, entries, order[1..]);
        var i: nat :| FailsAt(md, entries, order[1..], i, rest.error);
        forall j | 0 <= j < i + 1
          ensures !Broken(entries, order[j])
        {
          if j > 0 {
            assert order[j] == order[1..][j - 1];
          }
        }
        assert order[i + 1] == order[1..][i];
        assert FailsAt(md, entries, order, i + 1, r.error);
      }
    }
  }

  /** Listed names are distinct when the entries are, and every entry is one path component. */
  lemma {:induction false} ScanNamesDistinct(md: Path, entries: map<string, Entry>, order: seq<string>)
    requires forall i, j :: 0 <= i < j < |order| ==> order[i] != order[j]
    requires forall k :: k in order ==> IsFileName(k)
    ensures var r := Scan(md, entries, order);
            r.Success? ==> DistinctNames(r.value)
    decreases |order|
  {
    var r := Scan(md, entries, order);
    if |order| > 0 && r.Success? {
      var rest := Scan(md, entries, order[1..]);
      assert forall i, j :: 0 <= i < j < |order[1..]| ==> order[1..][i] != order[1..][j] by {
        forall i, j | 0 <= i < j < |order[1..]|
          ensures order[1..][i] != order[1..][j]
        {
          assert order[1..][i] == order[i + 1] && order[1..][j] == order[j + 1];
        }
      }
      assert forall k :: k in order[1..] ==> k in order;
      ScanNamesDistinct(md, entries, order[1..]);
      assert rest.Success? && DistinctNames(rest.value);
      if HasConfig(entries, order[0]) {
        ScanListsOnlyLoadable(md, entries, order[1..]);
        FileNameOfJoin(md, order[0]);
        var first := Found(md, entries, order[0]);
        assert r.value == [first] + rest.value;
        forall m | m in rest.value
          ensures m.name != first.name
        {
          var k :| k in order[1..] && Loadable(entries, k) && m == Found(md, entries, k);
          FileNameOfJoin(md, k);
        }
        ConsDistinct(first, rest.value);
      }
    }
  }

  lemma ConsDistinct(first: MachineEntry, rest: seq<MachineEntry>)
    requires DistinctNames(rest)
    requires forall m :: m in rest ==> m.name != first.name
    ensures DistinctNames([first] + rest)
  {
    var ms := [first] + rest;
    forall a, b | 0 <= a < b < |ms|
      ensures ms[a].name != ms[b].name
    {
      if a > 0 {
        assert ms[a] == rest[a - 1] && ms[b] == rest[b - 1];
      } else {
        assert ms[b] in rest;
      }
    }
  }

  /**
    For a read of the directory that completes: the listing holds exactly
    the loadable entries, each under its own name and with its own
    configuration, and no name twice.
  */
  lemma ListingIsExact(h: Host, order: seq<string>)
    requires Enumerates(order, h.entries) && WellNamed(h.entries)
    ensures var r := GetMachines(h, order);
            r.Success? ==>
              (forall m :: m in r.value.1 ==> Loadable(h.entries, m.name) && m.config == LoadedConfig(h.entries, m.name))
              && (forall k :: Loadable(h.entries, k) ==> MachineEntry(k, LoadedConfig(h.entries, k)) in r.value.1)
              && DistinctNames(r.value.1)
  {
    if GetMachines(h, order).Success? {
      var md := MachinesDirOf(h);
      assert GetMachines(h, order).value.1 == Scan(md, h.entries, order).value;
      ListingOnlyLoadable(md, h.entries, order);
      ListingEveryLoadable(md, h.entries, order);
      ScanNamesDistinct(md, h.entries, order);
    }
  }

  /** With entries named by single components, a listed machine's name is its entry's key. */
  lemma ListingOnlyLoadable(md: Path, entries: map<string, Entry>, order: seq<string>)
    requires forall k :: k in order ==> IsFileName(k)
    ensures var r := Scan(md, entries, order);
            r.Success? ==> forall m :: m in r.value ==> Loadable(entries, m.name) && m.config == LoadedConfig(entries, m.name)
  {
    var r := Scan(md, entries, order);
    if r.Success? {
      ScanListsOnlyLoadable(md, entries, order);
      forall m | m in r.value
        ensures Loadable(entries, m.name) && m.config == LoadedConfig(entries, m.name)
      {
        var k :| k in order && Loadable(entries, k) && m == Found(md, entries, k);
        FileNameOfJoin(md, k);
      }
    }
  }

  /** With entries named by single components, every loadable entry is listed under its key. */
  lemma ListingEveryLoadable(md: Path, entries: map<string, Entry>, order: seq<string>)
    requires forall k :: k in entries ==> k in order && IsFileName(k)
    ensures var r := Scan(md, entries, order);
            r.Success? ==> forall k :: Loadable(entries, k) ==> MachineEntry(k, LoadedConfig(entries, k)) in r.value
  {
    var r := Scan(md, entries, order);
    if r.Success? {
      ScanListsEveryLoadable(md, entries, order);
      forall k | Loadable(entries, k)
        ensures MachineEntry(k, LoadedConfig(entries, k)) in r.value
      {
        FileNameOfJoin(md, k);
      }
    }
  }

  /**
    Listing succeeds exactly when the home directory is known, the machines
    directory is readable and no entry holds a configuration that fails to
    parse.
  */
  lemma ListingSucceedsIff(h: Host, order: seq<string>)
    requires Enumerates(order, h.entries)
    ensures GetMachines(h, order).Success? <==>
              h.home.Some? && h.readable && forall k :: k in h.entries ==> !Broken(h.entries, k)
  {
    if h.home.Some? && h.readable {
      var md := MachinesDirOf(h);
      assert (forall k :: k in h.entries ==> !Broken(h.entries, k))
         <==> (forall i :: 0 <= i < |order| ==> !Broken(h.entries, order[i]));
    }
  }

  /**
    A failed listing caused by a configuration names that entry's
    `machine.toml` and carries the parser's error; every earlier entry in
    the order parsed or was skipped.
  */
  lemma ListingFailureNamesFirstBroken(h: Host, order: seq<string>)
    requires h.home.Some? && h.readable
    ensures var r := GetMachines(h, order);
            r.Failure? ==> exists i: nat :: FailsAt(MachinesDirOf(h), h.entries, order, i, r.error)
  {
    ScanFailsAtFirstBroken(MachinesDirOf(h), h.entries, order);
  }

  /**
    An entry the read never reached, because reading the directory failed
    before it, is missing from a successful listing.
  */
  lemma UnreachedEntryNotListed(h: Host, order: seq<string>, key: string)
    requires YieldsEntries(order, h.entries) && WellNamed(h.entries) && key !in order
    ensures var r := GetMachines(h, order);
            r.Success? ==> forall m :: m in r.value.1 ==> m.name != key
  {
    var r := GetMachines(h, order);
    if r.Success? {
      var md := MachinesDirOf(h);
      assert r.value.1 == Scan(md, h.entries, order).value;
      ScanListsOnlyLoadable(md, h.entries, order);
      forall m | m in r.value.1
        ensures m.name != key
      {
        var k :| k in order && Loadable(h.entries, k) && m == Found(md, h.entries, k);
        var i :| 0 <= i < |order| && order[i] == k;
        FileNameOfJoin(md, k);
      }
    }
  }

  // ---------------------------------------------------------------------------
  // The machine subcommand
  // ---------------------------------------------------------------------------

  /** The host can list its machines. */
  predicate Listable(h: Host, order: seq<string>) {
    Enumerates(order, h.entries) && WellNamed(h.entries)
    && h.home.Some? && h.readable
    && forall k :: k in h.entries ==> !Broken(h.entries, k)
  }

  /** The listing finds a loadable entry by its name. */
  lemma FindsLoadable(h: Host, order: seq<string>, name: string)
    requires Listable(h, order)
    ensures GetMachines(h, order).Success?
    ensures var ms := GetMachines(h, order).value.1;
            var found := FindMachine(ms, name);
            (found.Some? <==> Loadable(h.entries, name))
            && (found.Some? ==> found.value == MachineEntry(name, LoadedConfig(h.entries, name)))
  {
    ListingSucceedsIff(h, order);
    ListingIsExact(h, order);
    var ms := GetMachines(h, order).value.1;
    var found := FindMachine(ms, name);
    if found.Some? {
      assert found.value in ms;
    }
  }

  /** `ls` shows each loadable machine once, by its entry name, and changes nothing. */
  lemma LsShowsLoadableNames(h: Host, order: seq<string>)
    requires Listable(h, order)
    ensures var o := ListMachines(h, order);
            o.host == h && o.reply.Done? && o.reply.effect.Listing?
            && (forall k :: k in o.reply.effect.names <==> Loadable(h.entries, k))
            && (forall a, b :: 0 <= a < b < |o.reply.effect.names| ==> o.reply.effect.names[a] != o.reply.effect.names[b])
  {
    ListingSucceedsIff(h, order);
    ListingIsExact(h, order);
    var ms := GetMachines(h, order).value.1;
    var names := Names(ms);
    forall k ensures k in names <==> Loadable(h.entries, k) {
      if k in names {
        var i :| 0 <= i < |names| && names[i] == k;
        assert ms[i] in ms;
      }
      if Loadable(h.entries, k) {
        var m := MachineEntry(k, LoadedConfig(h.entries, k));
        var i :| 0 <= i < |ms| && ms[i] == m;
        assert names[i] == k;
      }
    }
  }

  /** `run` launches the hypervisor for the named machine, from its own directory, and changes nothing. */
  lemma RunLaunchesNamedMachine(h: Host, order: seq<string>, name: string, cdRom: Option<Path>, verbose: bool)
    requires Listable(h, order) && Loadable(h.entries, name)
    ensures MachineSubcommand(h, order, name, Run(cdRom, verbose))
         == Outcome(h, Done(Launched(L.ConstructLaunchCommand(LoadedConfig(h.entries, name), Join(MachinesDirOf(h), name), cdRom))))
  {
    FindsLoadable(h, order, name);
  }

  /** A name that no listed machine has is refused, and nothing changes. */
  lemma UnknownNameRefused(h: Host, order: seq<string>, name: string, cmd: MachineCommand)
    requires Listable(h, order) && !Loadable(h.entries, name)
    ensures MachineSubcommand(h, order, name, cmd) == Outcome(h, Failed(NoMachineByName))
  {
    FindsLoadable(h, order, name);
  }

  /** A confirmed `remove` deletes exactly the named machine's directory. */
  lemma ConfirmedRemoveDeletes(h: Host, order: seq<string>, name: string)
    requires Listable(h, order) && Loadable(h.entries, name)
    ensures var o := MachineSubcommand(h, order, name, Remove(true));
            o.host == h.(entries := h.entries - {name})
            && o.reply == Done(Removed(Join(MachinesDirOf(h), name)))
  {
    FindsLoadable(h, order, name);
  }

  /** Without confirmation `remove` only warns, naming the directory it would delete. */
  lemma UnconfirmedRemoveKeeps(h: Host, order: seq<string>, name: string)
    requires Listable(h, order) && Loadable(h.entries, name)
    ensures MachineSubcommand(h, order, name, Remove(false))
         == Outcome(h, Done(RemovalWarning(Join(MachinesDirOf(h), name))))
  {
    FindsLoadable(h, order, name);
  }

  /**
    After a confirmed removal the machine is no longer listed, and every
    other machine still is, with the same configuration.
  */
  lemma RemovedMachineNotListed(h: Host, order: seq<string>, name: string, order2: seq<string>)
    requires Listable(h, order) && Loadable(h.entries, name)
    requires Enumerates(order2, h.entries - {name})
    ensures var h2 := MachineSubcommand(h, order, name, Remove(true)).host;
            var r := GetMachines(h2, order2);
            r.Success?
            && (forall m :: m in r.value.1 ==> m.name != name)
            && (forall k :: k != name && Loadable(h.entries, k) ==>
                  MachineEntry(k, LoadedConfig(h.entries, k)) in r.value.1)
  {
    ConfirmedRemoveDeletes(h, order, name);
    var h2 := h.(entries := h.entries - {name});
    assert Listable(h2, order2);
    ListingSucceedsIff(h2, order2);
    ListingIsExact(h2, order2);
    forall k | k != name && Loadable(h.entries, k)
      ensures Loadable(h2.entries, k) && LoadedConfig(h2.entries, k) == LoadedConfig(h.entries, k)
    {
    }
  }

  // ---------------------------------------------------------------------------
  // The new subcommand
  // ---------------------------------------------------------------------------

  /** A name already present in the directory is refused before anything is created. */
  lemma NewRefusesTakenName(h: Host, order: seq<string>, name: string, diskSize: Q.U32, faults: Faults)
    requires h.home.Some? && h.readable && NameTaken(order, name)
    ensures NewMachine(h, order, name, diskSize, faults) == Outcome(h, Failed(NewMachineDirectoryExists))
  {
  }

  /** A read that completes sees a name as taken exactly when it is an entry. */
  lemma CompleteReadSeesEveryName(h: Host, order: seq<string>, name: string)
    requires Enumerates(order, h.entries)
    ensures NameTaken(order, name) <==> name in h.entries
  {
    if name in order {
      var i :| 0 <= i < |order| && order[i] == name;
    }
  }

  /** A read never names what is not an entry, so such a name is never taken. */
  lemma UnknownNameNotTaken(h: Host, order: seq<string>, name: string)
    requires YieldsEntries(order, h.entries) && name !in h.entries
    ensures !NameTaken(order, name)
  {
    forall i | 0 <= i < |order|
      ensures order[i] != name
    {
      assert order[i] in h.entries;
    }
  }

  /**
    An entry the read never reached, because reading the directory failed
    before it, passes the name scan; `create_dir` then finds it, so `new`
    reports `CreateMachineDirectoryFail` instead of
    `NewMachineDirectoryExists`, and changes nothing.
  */
  lemma NewMissesUnreachedEntry(h: Host, order: seq<string>, name: string, diskSize: Q.U32, faults: Faults)
    requires h.home.Some? && h.readable && IsFileName(name)
    requires name in h.entries && name !in order
    ensures NewMachine(h, order, name, diskSize, faults) == Outcome(h, Failed(CreateMachineDirectoryFail))
  {
    TargetOfFileName(h.entries, name);
  }

  /**
    When `create_dir` fails — the name is an entry the read never reached,
    or the path exists for another reason, or the file system refuses —
    nothing is created.
  */
  lemma NewCreateDirFailure(h: Host, order: seq<string>, name: string, diskSize: Q.U32, faults: Faults)
    requires h.home.Some? && h.readable && !NameTaken(order, name)
    requires faults.createDirFails || CreateDirRefused(h, name)
    ensures NewMachine(h, order, name, diskSize, faults) == Outcome(h, Failed(CreateMachineDirectoryFail))
  {
  }

  /** The text `new_machine` writes is the default configuration, and reads back as it. */
  lemma DefaultConfigReadsBack()
    ensures S.FromStr(S.ToStringPretty(Q.DefaultConfig())) == Success(Q.DefaultConfig())
  {
    S.FromStrRoundTrip(Q.DefaultConfig());
  }

  /**
    A successful `new` adds exactly one directory, the entry the name
    addresses, holding the default configuration, and asks for a qcow2
    image of the requested size inside it.
  */
  lemma NewCreatesDefaultMachine(h: Host, order: seq<string>, name: string, key: string, diskSize: Q.U32)
    requires h.home.Some? && h.readable && !NameTaken(order, name)
    requires TargetOf(h.entries, name) == Child(key) && key !in h.entries
    ensures var o := NewMachine(h, order, name, diskSize, Faults(false, false));
            var dir := Join(MachinesDirOf(h), name);
            o.host == h.(entries := h.entries[key := Dir(Some(S.ToStringPretty(Q.DefaultConfig())))])
            && Loadable(o.host.entries, key) && LoadedConfig(o.host.entries, key) == Q.DefaultConfig()
            && o.reply == Done(DiskRequested(L.Command(DiskTool, ["create", "-f", "qcow2", Join(dir, DiskFileName), NatToString(diskSize) + "M"])))
  {
    DefaultConfigReadsBack();
  }

  /** The size argument of the disk request reads back as the requested number of megabytes. */
  lemma DiskSizeReadsBack(path: Path, diskSize: Q.U32)
    ensures var arg := DiskImageCommand(path, diskSize).args[4];
            |arg| > 1 && arg[|arg| - 1] == 'M' && ParseNat(arg[..|arg| - 1]) == Some(diskSize as nat)
  {
    var digits := NatToString(diskSize);
    assert (digits + "M")[..|digits|] == digits;
    ParseNatRoundTrip(diskSize);
  }

  /**
    When writing `machine.toml` fails, the directory created just before
    stays behind, empty of a configuration.
  */
  lemma FailedWriteLeavesDirectory(h: Host, order: seq<string>, name: string, key: string, diskSize: Q.U32)
    requires h.home.Some? && h.readable && !NameTaken(order, name)
    requires TargetOf(h.entries, name) == Child(key) && key !in h.entries
    ensures NewMachine(h, order, name, diskSize, Faults(false, true))
         == Outcome(h.(entries := h.entries[key := Dir(None)]), Failed(WriteMachineTomlFail))
  {
  }

  /**
    Creating the same name twice: unless the file system refused the first
    directory, the name is an entry afterwards, so a second `new` whose read
    of the directory completes refuses it and changes nothing — whether the
    first found the name taken, collided with an entry its read never
    reached, or created the directory with or without its configuration.
  */
  lemma {:induction false} CreateTwiceConflicts(h: Host, order1: seq<string>, order2: seq<string>, name: string,
                                                size1: Q.U32, size2: Q.U32, faults1: Faults, faults2: Faults)
    requires h.home.Some? && h.readable
    requires IsFileName(name) && YieldsEntries(order1, h.entries) && !faults1.createDirFails
    requires Enumerates(order2, NewMachine(h, order1, name, size1, faults1).host.entries)
    ensures var h2 := NewMachine(h, order1, name, size1, faults1).host;
            NewMachine(h2, order2, name, size2, faults2) == Outcome(h2, Failed(NewMachineDirectoryExists))
  {
    TargetOfFileName(h.entries, name);
    var h2 := NewMachine(h, order1, name, size1, faults1).host;
    if NameTaken(order1, name) {
      var i :| 0 <= i < |order1| && order1[i] == name;
      assert name in h2.entries;
    } else if name !in h.entries {
      assert h2.entries[name].Dir?;
    }
    assert name in order2;
  }

  /** A successful `new` followed by `run` launches the default machine from its new directory. */
  lemma NewThenRunLaunchesDefault(h: Host, order1: seq<string>, name: string, diskSize: Q.U32, order: seq<string>, cdRom: Option<Path>, verbose: bool)
    requires h.home.Some? && h.readable && IsFileName(name) && name !in h.entries && YieldsEntries(order1, h.entries)
    requires var h2 := NewMachine(h, order1, name, diskSize, Faults(false, false)).host;
             Listable(h2, order)
    ensures var h2 := NewMachine(h, order1, name, diskSize, Faults(false, false)).host;
            MachineSubcommand(h2, order, name, Run(cdRom, verbose))
              == Outcome(h2, Done(Launched(L.ConstructLaunchCommand(Q.DefaultConfig(), Join(MachinesDirOf(h), name), cdRom))))
  {
    TargetOfFileName(h.entries, name);
    assert !NameTaken(order1, name);
    NewCreatesDefaultMachine(h, order1, name, name, diskSize);
    var h2 := NewMachine(h, order1, name, diskSize, Faults(false, false)).host;
    RunLaunchesNamedMachine(h2, order, name, cdRom, verbose);
  }

  /**
    Once a `new` has created the directory its name addresses, a second
    `new` of that name fails and changes nothing: refused by the name scan
    when the name is the entry's own, and by `create_dir` otherwise.
  */
  lemma CreateTwiceFails(h: Host, order1: seq<string>, order2: seq<string>, name: string,
                         size1: Q.U32, size2: Q.U32, faults1: Faults, faults2: Faults)
    requires NewMachine(h, order1, name, size1, faults1).host != h
    ensures var h2 := NewMachine(h, order1, name, size1, faults1).host;
            var o := NewMachine(h2, order2, name, size2, faults2);
            o.host == h2 && (o.reply == Failed(NewMachineDirectoryExists) || o.reply == Failed(CreateMachineDirectoryFail))
  {
    NewChangeAddsAddressedEntry(h, order1, name, size1, faults1);
    var h2 := NewMachine(h, order1, name, size1, faults1).host;
    var key := TargetOf(h.entries, name).key;
    assert h2.entries == h.entries[key := h2.entries[key]];
    TargetOfAfterAdd(h.entries, name, key, h2.entries[key]);
    assert h2.home.Some? && h2.readable;
    assert CreateDirRefused(h2, name);
  }

  /**
    A `new` that changes the directory had a machines directory and created
    the entry its name addresses, which did not exist before.
  */
  lemma NewChangeAddsAddressedEntry(h: Host, order: seq<string>, name: string, diskSize: Q.U32, faults: Faults)
    requires NewMachine(h, order, name, diskSize, faults).host != h
    ensures h.home.Some? && h.readable
    ensures var t := TargetOf(h.entries, name);
            t.Child? && t.key !in h.entries && t.key in NewMachine(h, order, name, diskSize, faults).host.entries
  {
  }

  // ---------------------------------------------------------------------------
  // Where a new machine's directory lands
  // ---------------------------------------------------------------------------

  /** A single path component addresses the entry of that name. */
  lemma TargetOfFileName(entries: map<string, Entry>, name: string)
    requires IsFileName(name)
    ensures TargetOf(entries, name) == Child(name)
  {
    SegmentsOfComponent(name);
    assert [name][..0] == [];
  }

  /** A trailing separator addresses the same entry. */
  lemma TargetOfTrailingSeparator(entries: map<string, Entry>, name: string)
    requires |name| > 0
    ensures TargetOf(entries, name + "/") == TargetOf(entries, name)
  {
    SegmentsDropTrailing(name);
  }

  /** A leading `./` addresses the same entry. */
  lemma TargetOfCurrentDirPrefix(entries: map<string, Entry>, name: string)
    requires !IsAbsolute(name)
    ensures TargetOf(entries, "./" + name) == TargetOf(entries, name)
  {
    var segs := Segments(name);
    SegmentsOfCurrentDirPrefix(name);
    var all := ["."] + segs;
    if |segs| > 0 {
      var parent := segs[..|segs| - 1];
      assert all[..|all| - 1] == ["."] + parent;
      assert all[|all| - 1] == segs[|segs| - 1];
      WalkSkipsDot(entries, AtMachinesDir, parent);
    }
  }

  /** `./name` is walked as `.` followed by the segments of `name`. */
  lemma SegmentsOfCurrentDirPrefix(name: string)
    ensures Segments("./" + name) == ["."] + Segments(name)
  {
    assert "./" + name == "." + "/" + name;
    SegmentsAroundSeparator(".", name);
    SegmentsOfComponent(".");
  }

  /** A leading `.` does not move the walk. */
  lemma WalkSkipsDot(entries: map<string, Entry>, place: Place, segs: seq<string>)
    ensures Walk(entries, place, ["."] + segs) == Walk(entries, place, segs)
  {
    assert (["."] + segs)[1..] == segs;
  }

  /** The segments of `a/../b` for single components `a` and `b`. */
  lemma SegmentsOfParentStep(a: string, b: string)
    requires IsFileName(a) && IsFileName(b)
    ensures Segments(a + "/../" + b) == [a, "..", b]
  {
    assert a + "/../" + b == a + "/" + (".." + "/" + b);
    SegmentsAroundSeparator(a, ".." + "/" + b);
    SegmentsOfComponent(a);
    SegmentsOfParentThen(b);
  }

  /** The segments of `../b` are `..` and `b`. */
  lemma SegmentsOfParentThen(b: string)
    requires IsFileName(b)
    ensures Segments(".." + "/" + b) == ["..", b]
  {
    SegmentsAroundSeparator("..", b);
    SegmentsOfComponent("..");
    SegmentsOfComponent(b);
  }

  /** Through a directory entry `a`, `a/../b` addresses the entry `b`. */
  lemma TargetOfParentStep(entries: map<string, Entry>, a: string, b: string)
    requires IsFileName(a) && IsFileName(b)
    requires a in entries && entries[a].Dir?
    ensures TargetOf(entries, a + "/../" + b) == Child(b)
  {
    SegmentsOfParentStep(a, b);
    assert [a, "..", b][..2] == [a, ".."];
    assert Step(entries, AtMachinesDir, a) == InEntry(a);
    assert [a, ".."][1..] == [".."] && [".."][1..] == [];
    assert Walk(entries, InEntry(a), [".."]) == AtMachinesDir;
    assert Walk(entries, AtMachinesDir, [a, ".."]) == AtMachinesDir;
  }

  /** A path under an entry that does not exist can never be created. */
  lemma TargetOfMissingParent(entries: map<string, Entry>, a: string, b: string)
    requires IsFileName(a) && IsFileName(b) && a !in entries
    ensures TargetOf(entries, a + "/" + b) == Refused
  {
    SegmentsAroundSeparator(a, b);
    SegmentsOfComponent(a);
    SegmentsOfComponent(b);
    assert [a] + [b] == [a, b];
    assert [a, b][..1] == [a];
  }

  /** A walk that is not blocked does not change when an entry is added where there was none. */
  lemma {:induction false} WalkAfterAdd(entries: map<string, Entry>, place: Place, segs: seq<string>, key: string, e: Entry)
    requires key !in entries && Walk(entries, place, segs) != Blocked
    ensures Walk(entries[key := e], place, segs) == Walk(entries, place, segs)
    decreases |segs|
  {
    if |segs| > 0 {
      var next := Step(entries, place, segs[0]);
      assert next != Blocked;
      assert Step(entries[key := e], place, segs[0]) == next;
      WalkAfterAdd(entries, next, segs[1..], key, e);
    }
  }

  /** Creating an entry that did not exist leaves what a name addresses unchanged. */
  lemma TargetOfAfterAdd(entries: map<string, Entry>, name: string, key: string, e: Entry)
    requires key !in entries && TargetOf(entries, name).Child?
    ensures TargetOf(entries[key := e], name) == TargetOf(entries, name)
  {
    var segs := Segments(name);
    WalkAfterAdd(entries, AtMachinesDir, segs[..|segs| - 1], key, e);
  }

  /**
    A name the scan does not see as taken, but that addresses an existing
    entry, is refused by `create_dir`: nothing is created and no disk is
    requested.
  */
  lemma NewAliasOfExistingRefused(h: Host, order: seq<string>, name: string, key: string, diskSize: Q.U32, faults: Faults)
    requires h.home.Some? && h.readable && !NameTaken(order, name)
    requires TargetOf(h.entries, name) == Child(key) && key in h.entries
    ensures NewMachine(h, order, name, diskSize, faults) == Outcome(h, Failed(CreateMachineDirectoryFail))
  {
  }

  /** `new foo/` beside an existing `foo` fails to create the directory and leaves `foo` alone. */
  lemma TrailingSeparatorCollides(h: Host, order: seq<string>, name: string, diskSize: Q.U32, faults: Faults)
    requires h.home.Some? && h.readable && IsFileName(name)
    requires name in h.entries && name + "/" !in h.entries && YieldsEntries(order, h.entries)
    ensures NewMachine(h, order, name + "/", diskSize, faults) == Outcome(h, Failed(CreateMachineDirectoryFail))
  {
    TargetOfTrailingSeparator(h.entries, name);
    TargetOfFileName(h.entries, name);
    NewAliasOfExistingRefused(h, order, name + "/", name, diskSize, faults);
  }

  /** `new foo/` in a directory without `foo` creates the machine `foo`. */
  lemma TrailingSeparatorCreates(h: Host, order: seq<string>, name: string, diskSize: Q.U32)
    requires h.home.Some? && h.readable && IsFileName(name)
    requires name !in h.entries && name + "/" !in h.entries && YieldsEntries(order, h.entries)
    ensures var o := NewMachine(h, order, name + "/", diskSize, Faults(false, false));
            o.reply.Done? && Loadable(o.host.entries, name) && LoadedConfig(o.host.entries, name) == Q.DefaultConfig()
  {
    TargetOfTrailingSeparator(h.entries, name);
    TargetOfFileName(h.entries, name);
    NewCreatesDefaultMachine(h, order, name + "/", name, diskSize);
  }
  /**
    `new a/../b` through a directory `a` passes the name scan, but `create_dir`
    refuses it when `b` exists, leaving `b` alone.
  */
  lemma ParentStepCollides(h: Host, order: seq<string>, a: string, b: string, diskSize: Q.U32, faults: Faults)
    requires h.home.Some? && h.readable && IsFileName(a) && IsFileName(b)
    requires a in h.entries && h.entries[a].Dir? && b in h.entries
    requires a + "/../" + b !in h.entries && YieldsEntries(order, h.entries)
    ensures NewMachine(h, order, a + "/../" + b, diskSize, faults) == Outcome(h, Failed(CreateMachineDirectoryFail))
  {
    TargetOfParentStep(h.entries, a, b);
    NewAliasOfExistingRefused(h, order, a + "/../" + b, b, diskSize, faults);
  }

  /** `new a/../b` through a directory `a` creates the machine `b` when there is none. */
  lemma ParentStepCreates(h: Host, order: seq<string>, a: string, b: string, diskSize: Q.U32)
    requires h.home.Some? && h.readable && IsFileName(a) && IsFileName(b)
    requires a in h.entries && h.entries[a].Dir? && b !in h.entries
    requires a + "/../" + b !in h.entries && YieldsEntries(order, h.entries)
    ensures var o := NewMachine(h, order, a + "/../" + b, diskSize, Faults(false, false));
            o.reply.Done? && Loadable(o.host.entries, b) && LoadedConfig(o.host.entries, b) == Q.DefaultConfig()
  {
    TargetOfParentStep(h.entries, a, b);
    NewCreatesDefaultMachine(h, order, a + "/../" + b, b, diskSize);
  }

  /** `new a/b` under an entry `a` that does not exist fails to create the directory. */
  lemma MissingParentRefused(h: Host, order: seq<string>, a: string, b: string, diskSize: Q.U32, faults: Faults)
    requires h.home.Some? && h.readable && IsFileName(a) && IsFileName(b)
    requires a !in h.entries && a + "/" + b !in h.entries && YieldsEntries(order, h.entries)
    ensures NewMachine(h, order, a + "/" + b, diskSize, faults) == Outcome(h, Failed(CreateMachineDirectoryFail))
  {
    TargetOfMissingParent(h.entries, a, b);
  }


  // ---------------------------------------------------------------------------
  // Every subcommand
  // ---------------------------------------------------------------------------

  /**
    Without a home directory nothing changes: `ls` and `new` fail with
    `NoHomeDirectory`, and `machine` stops at its unfinished branch.
  */
  lemma NoHomeFailsEverything(h: Host, order: seq<string>, cmd: CliCommand, faults: Faults)
    requires h.home.None?
    ensures var o := Dispatch(h, order, cmd, faults);
            o.host == h && (o.reply == Failed(NoHomeDirectory) || o.reply == Unfinished(NoHomeDirectory))
  {
  }

  /** Listing, running and an unconfirmed removal never change the machines directory. */
  lemma ReadOnlySubcommands(h: Host, order: seq<string>, cmd: CliCommand, faults: Faults)
    requires cmd.Ls? || (cmd.Machine? && (cmd.cmd.Run? || cmd.cmd == Remove(false)))
    ensures Dispatch(h, order, cmd, faults).host == h
  {
  }

  /** Only a successful `new` or a confirmed `remove` of a listed machine changes the directory. */
  lemma ChangesOnlyOnSuccess(h: Host, order: seq<string>, cmd: CliCommand, faults: Faults)
    ensures var o := Dispatch(h, order, cmd, faults);
            o.host != h ==> (cmd.New? && (o.reply.Done? || o.reply == Failed(WriteMachineTomlFail)))
                            || (cmd.Machine? && cmd.cmd == Remove(true) && o.reply.Done? && o.reply.effect.Removed?)
  {
  }
}

=== FILE: schema.dfy ===
/**
  The strict serde mapping between `machine.toml` and the `Config` record.

  A TOML document is modelled after the TOML syntax layer has run: an ordered
  table of key/value fields. Decoding follows what `#[derive(Deserialize)]`
  with `#[serde(deny_unknown_fields)]` does with such a table: fields are
  visited in document order, a key outside the struct is an error, a key seen
  twice is an error, a value of the wrong kind is an error, and after the last
  field every struct field must have been seen (no field has a serde default).
  The enum is spelled in lower case (`rename_all = "lowercase"`).
*/
module Schema {
  import opened Wrappers
  import opened Paths
  import C = QemuConfig

  /** The TOML values the record can meet. */
  datatype Value =
    | Str(s: string)
    | Int(i: int)
    | Bool(b: bool)
    | Table(fields: seq<Field>)

  datatype Field = Field(key: string, value: Value)

  /** The text of a `machine.toml`: not TOML at all, or a TOML document. */
  datatype ConfigText =
    | Malformed(message: string)
    | Document(fields: seq<Field>)

  /** What serde reports when a TOML table does not fit the struct. */
  datatype DecodeError =
    | UnknownField(key: string)
    | DuplicateField(key: string)
    | MissingField(key: string)
    | InvalidType(key: string)
    | InvalidValue(key: string)
    | UnknownVariant(name: string)

  /** `toml::de::Error`: a syntax error or a schema mismatch. */
  datatype TomlError =
    | SyntaxError(message: string)
    | SchemaError(cause: DecodeError)

  const MachineFields: set<string> := {"disk", "cpus", "memory", "kvm", "uefi", "video"}

  function VideoName(v: C.VideoOption): string {
    match v
    case Std => "std"
    case VirtIo => "virtio"
    case Qxl => "qxl"
    case None => "none"
  }

  function ParseVideo(s: string): (r: Option<C.VideoOption>)
    ensures r.Some? ==> VideoName(r.value) == s
    ensures r.None? ==> forall v: C.VideoOption :: VideoName(v) != s
  {
    if s == "std" then Some(C.Std)
    else if s == "virtio" then Some(C.VirtIo)
    else if s == "qxl" then Some(C.Qxl)
    else if s == "none" then Some(C.VideoOption.None)
    else None
  }

  /** The fields of the `[machine]` table seen so far. */
  datatype Partial = Partial(
    disk: Option<Path>,
    cpus: Option<C.U32>,
    memory: Option<C.U32>,
    kvm: Option<bool>,
    uefi: Option<bool>,
    video: Option<C.VideoOption>)

  const Empty := Partial(None, None, None, None, None, None)

  /** The struct fields not yet seen. */
  function Unseen(acc: Partial): set<string> {
    (if acc.disk.None? then {"disk"} else {})
    + (if acc.cpus.None? then {"cpus"} else {})
    + (if acc.memory.None? then {"memory"} else {})
    + (if acc.kvm.None? then {"kvm"} else {})
    + (if acc.uefi.None? then {"uefi"} else {})
    + (if acc.video.None? then {"video"} else {})
  }

  function DecodeU32(key: string, v: Value): Result<C.U32, DecodeError> {
    match v
    case Int(i) => if 0 <= i < 0x1_0000_0000 then Success(i) else Failure(InvalidValue(key))
    case _ => Failure(InvalidType(key))
  }

  function DecodeBool(key: string, v: Value): Result<bool, DecodeError> {
    match v
    case Bool(b) => Success(b)
    case _ => Failure(InvalidType(key))
  }

  function DecodeVideo(v: Value): Result<C.VideoOption, DecodeError> {
    match v
    case Str(s) =>
      (match ParseVideo(s)
       case Some(video) => Success(video)
       case None => Failure(UnknownVariant(s)))
    case _ => Failure(InvalidType("video"))
  }

  function VisitDisk(acc: Partial, v: Value): Result<Partial, DecodeError> {
    if acc.disk.Some? then Failure(DuplicateField("disk"))
    else if v.Str? then Success(acc.(disk := Some(v.s)))
    else Failure(InvalidType("disk"))
  }

  function VisitCpus(acc: Partial, v: Value): Result<Partial, DecodeError> {
    if acc.cpus.Some? then Failure(DuplicateField("cpus"))
    else var n :- DecodeU32("cpus", v); Success(acc.(cpus := Some(n)))
  }

  function VisitMemory(acc: Partial, v: Value): Result<Partial, DecodeError> {
    if acc.memory.Some? then Failure(DuplicateField("memory"))
    else var n :- DecodeU32("memory", v); Success(acc.(memory := Some(n)))
  }

  function VisitKvm(acc: Partial, v: Value): Result<Partial, DecodeError> {
    if acc.kvm.Some? then Failure(DuplicateField("kvm"))
    else var b :- DecodeBool("kvm", v); Success(acc.(kvm := Some(b)))
  }

  function VisitUefi(acc: Partial, v: Value): Result<Partial, DecodeError> {
    if acc.uefi.Some? then Failure(DuplicateField("uefi"))
    else var b :- DecodeBool("uefi", v); Success(acc.(uefi := Some(b)))
  }

  function VisitVideo(acc: Partial, v: Value): Result<Partial, DecodeError> {
    if acc.video.Some? then Failure(DuplicateField("video"))
    else var video :- DecodeVideo(v); Success(acc.(video := Some(video)))
  }

  /** Visits one field of the `[machine]` table. */
  function Visit(acc: Partial, f: Field): Result<Partial, DecodeError> {
    if f.key == "disk" then VisitDisk(acc, f.value)
    else if f.key == "cpus" then VisitCpus(acc, f.value)
    else if f.key == "memory" then VisitMemory(acc, f.value)
    else if f.key == "kvm" then VisitKvm(acc, f.value)
    else if f.key == "uefi" then VisitUefi(acc, f.value)
    else if f.key == "video" then VisitVideo(acc, f.value)
    else Failure(UnknownField(f.key))
  }

  /** A visit succeeds only on a struct field not seen before. */
  lemma VisitOnlyUnseen(acc: Partial, f: Field)
    requires Visit(acc, f).Success?
    ensures f.key in Unseen(acc)
  {
    VisitUpdatesOneField(acc, f);
  }

  /** A successful visit marks its field seen and keeps what was seen before. */
  lemma VisitMarksSeen(acc: Partial, f: Field)
    requires Visit(acc, f).Success?
    ensures Unseen(Visit(acc, f).value) == Unseen(acc) - {f.key}
  {
    VisitUpdatesOneField(acc, f);
  }

  /** A record agreeing with the state after a visit agrees with it before. */
  lemma VisitKeepsAgreement(acc: Partial, f: Field, m: C.Machine)
    requires Visit(acc, f).Success? && Agrees(Visit(acc, f).value, m)
    ensures Agrees(acc, m)
  {
    VisitUpdatesOneField(acc, f);
  }

  /** A field visited on the way to record `m` is one of the fields serde writes for `m`. */
  lemma VisitEncodesField(acc: Partial, f: Field, m: C.Machine)
    requires Visit(acc, f).Success? && Agrees(Visit(acc, f).value, m)
    ensures f in EncodeMachine(m)
  {
    VisitUpdatesOneField(acc, f);
    var fields := EncodeMachine(m);
    if f.key == "disk" {
      assert f == fields[0];
    } else if f.key == "cpus" {
      assert f == fields[1];
    } else if f.key == "memory" {
      assert f == fields[2];
    } else if f.key == "kvm" {
      assert f == fields[3];
    } else if f.key == "uefi" {
      assert f == fields[4];
    } else {
      assert f == fields[5];
    }
  }

  lemma VisitUpdatesOneField(acc: Partial, f: Field)
    requires Visit(acc, f).Success?
    ensures f.key in MachineFields
    ensures f.key == "disk" ==> Visit(acc, f).value == acc.(disk := Some(f.value.s))
    ensures f.key == "cpus" ==> Visit(acc, f).value == acc.(cpus := Some(f.value.i))
    ensures f.key == "memory" ==> Visit(acc, f).value == acc.(memory := Some(f.value.i))
    ensures f.key == "kvm" ==> Visit(acc, f).value == acc.(kvm := Some(f.value.b))
    ensures f.key == "uefi" ==> Visit(acc, f).value == acc.(uefi := Some(f.value.b))
    ensures f.key == "video" ==> acc.video.None? && f.value.Str?
    ensures f.key == "video" ==> Visit(acc, f).value == acc.(video := ParseVideo(f.value.s))
  {
    var next := Visit(acc, f).value;
    if f.key == "disk" {
      assert next == acc.(disk := Some(f.value.s));
    } else if f.key == "cpus" {
      assert next == acc.(cpus := Some(f.value.i));
    } else if f.key == "memory" {
      assert next == acc.(memory := Some(f.value.i));
    } else if f.key == "kvm" {
      assert next == acc.(kvm := Some(f.value.b));
    } else if f.key == "uefi" {
      assert next == acc.(uefi := Some(f.value.b));
    } else {
      assert f.key == "video";
    }
  }

  /** After the last field: every struct field must have been given. */
  function Complete(acc: Partial): (r: Result<C.Machine, DecodeError>)
    ensures r.Success? <==> Unseen(acc) == {}
  {
    if acc.disk.None? then Failure(MissingField("disk"))
    else if acc.cpus.None? then Failure(MissingField("cpus"))
    else if acc.memory.None? then Failure(MissingField("memory"))
    else if acc.kvm.None? then Failure(MissingField("kvm"))
    else if acc.uefi.None? then Failure(MissingField("uefi"))
    else if acc.video.None? then Failure(MissingField("video"))
    else Success(C.Machine(acc.disk.value, acc.cpus.value, acc.memory.value,
                           acc.kvm.value, acc.uefi.value, acc.video.value))
  }

  function DecodeMachineFields(fs: seq<Field>, acc: Partial): Result<C.Machine, DecodeError>
    decreases |fs|
  {
    if |fs| == 0 then Complete(acc)
    else
      var next :- Visit(acc, fs[0]);
      DecodeMachineFields(fs[1..], next)
  }

  function DecodeMachine(v: Value): Result<C.Machine, DecodeError> {
    match v
    case Table(fs) => DecodeMachineFields(fs, Empty)
    case _ => Failure(InvalidType("machine"))
  }

  /** The top-level table, which holds exactly one key, `machine`. */
  function DecodeTop(fs: seq<Field>, seen: Option<C.Machine>): Result<C.Config, DecodeError>
    decreases |fs|
  {
    if |fs| == 0 then
      (match seen
       case Some(m) => Success(C.Config(m))
       case None => Failure(MissingField("machine")))
    else if fs[0].key != "machine" then Failure(UnknownField(fs[0].key))
    else if seen.Some? then Failure(DuplicateField("machine"))
    else
      var m :- DecodeMachine(fs[0].value);
      DecodeTop(fs[1..], Some(m))
  }

  function DecodeConfig(fs: seq<Field>): Result<C.Config, DecodeError> {
    DecodeTop(fs, None)
  }

  /** `toml::from_str::<Config>`. */
  function FromStr(text: ConfigText): Result<C.Config, TomlError> {
    match text
    case Malformed(message) => Failure(SyntaxError(message))
    case Document(fs) =>
      (match DecodeConfig(fs)
       case Success(c) => Success(c)
       case Failure(e) => Failure(SchemaError(e)))
  }

  /** The `[machine]` table serde writes: struct fields in declaration order. */
  function EncodeMachine(m: C.Machine): seq<Field> {
    [ Field("disk", Str(m.disk)),
      Field("cpus", Int(m.cpus)),
      Field("memory", Int(m.memory)),
      Field("kvm", Bool(m.kvm)),
      Field("uefi", Bool(m.uefi)),
      Field("video", Str(VideoName(m.video))) ]
  }

  function Encode(c: C.Config): seq<Field> {
    [Field("machine", Table(EncodeMachine(c.machine)))]
  }

  /** `toml::to_string_pretty`, which cannot fail for this record. */
  function ToStringPretty(c: C.Config): ConfigText {
    Document(Encode(c))
  }

  function Keys(fs: seq<Field>): set<string> {
    set i | 0 <= i < |fs| :: fs[i].key
  }

  predicate DistinctKeys(fs: seq<Field>) {
    forall i, j :: 0 <= i < j < |fs| ==> fs[i].key != fs[j].key
  }

  /** Every seen field of `acc` holds the value `m` ends up with. */
  predicate Agrees(acc: Partial, m: C.Machine) {
    && (acc.disk.Some? ==> acc.disk.value == m.disk)
    && (acc.cpus.Some? ==> acc.cpus.value == m.cpus)
    && (acc.memory.Some? ==> acc.memory.value == m.memory)
    && (acc.kvm.Some? ==> acc.kvm.value == m.kvm)
    && (acc.uefi.Some? ==> acc.uefi.value == m.uefi)
    && (acc.video.Some? ==> acc.video.value == m.video)
  }

  lemma KeysCons(fs: seq<Field>)
    requires |fs| > 0
    ensures Keys(fs) == {fs[0].key} + Keys(fs[1..])
  {
    forall k | k in Keys(fs) ensures k in {fs[0].key} + Keys(fs[1..]) {
      var i :| 0 <= i < |fs| && fs[i].key == k;
      if i > 0 { assert fs[1..][i - 1] == fs[i]; }
    }
    forall k | k in Keys(fs[1..]) ensures k in Keys(fs) {
      var i :| 0 <= i < |fs[1..]| && fs[1..][i].key == k;
      assert fs[i + 1] == fs[1..][i];
    }
  }

  /**
    A successful decode of the `[machine]` table visited each unseen struct
    field exactly once and nothing else.
  */
  lemma {:induction false} DecodeMachineFieldsKeys(fs: seq<Field>, acc: Partial)
    requires DecodeMachineFields(fs, acc).Success?
    ensures Keys(fs) == Unseen(acc) && DistinctKeys(fs)
    decreases |fs|
  {
    if |fs| == 0 {
      assert Keys(fs) == {};
    } else {
      var next := Visit(acc, fs[0]).value;
      DecodeMachineFieldsKeys(fs[1..], next);
      VisitOnlyUnseen(acc, fs[0]);
      VisitMarksSeen(acc, fs[0]);
      KeysCons(fs);
      forall i, j | 0 <= i < j < |fs| ensures fs[i].key != fs[j].key {
        assert fs[j] == fs[1..][j - 1];
        if i == 0 {
          assert fs[j].key in Keys(fs[1..]);
        } else {
          assert fs[i] == fs[1..][i - 1];
        }
      }
    }
  }

  lemma CompleteAgrees(acc: Partial)
    requires Complete(acc).Success?
    ensures Agrees(acc, Complete(acc).value)
  {
  }

  /** Each field of a successfully decoded table holds the value serde writes for the result. */
  lemma {:induction false} DecodeMachineFieldsValues(fs: seq<Field>, acc: Partial, m: C.Machine)
    requires DecodeMachineFields(fs, acc) == Success(m)
    ensures Agrees(acc, m)
    ensures forall i :: 0 <= i < |fs| ==> fs[i] in EncodeMachine(m)
    decreases |fs|
  {
    if |fs| == 0 {
      CompleteAgrees(acc);
    } else {
      var next := Visit(acc, fs[0]).value;
      DecodeMachineFieldsValues(fs[1..], next, m);
      VisitKeepsAgreement(acc, fs[0], m);
      VisitEncodesField(acc, fs[0], m);
      forall i | 0 <= i < |fs| ensures fs[i] in EncodeMachine(m) {
        if i > 0 { assert fs[i] == fs[1..][i - 1]; }
      }
    }
  }

  /**
    Strictness: a document that decodes has a top level holding only
    `machine`, and a `[machine]` table holding each of the six fields once,
    with no other key, and with exactly the values serde writes for the
    decoded record (in some order).
  */
  lemma DecodedShapeIsExact(fs: seq<Field>, c: C.Config)
    requires DecodeConfig(fs) == Success(c)
    ensures |fs| == 1 && fs[0].key == "machine" && fs[0].value.Table?
    ensures Keys(fs[0].value.fields) == MachineFields
    ensures |fs[0].value.fields| == 6
    ensures forall i :: 0 <= i < |fs[0].value.fields| ==> fs[0].value.fields[i] in EncodeMachine(c.machine)
  {
    DecodeTopSingle(fs, c);
    var table := fs[0].value.fields;
    assert Unseen(Empty) == MachineFields;
    DecodeMachineFieldsKeys(table, Empty);
    DecodeMachineFieldsValues(table, Empty, c.machine);
    DistinctKeysCount(table);
    MachineFieldsCount();
  }

  /** The schema has six distinct field names. */
  lemma MachineFieldsCount()
    ensures |MachineFields| == 6
  {
  }

  /** The top level decodes only as a single `machine` key whose table decodes. */
  lemma DecodeTopSingle(fs: seq<Field>, c: C.Config)
    requires DecodeConfig(fs) == Success(c)
    ensures |fs| == 1 && fs[0].key == "machine" && fs[0].value.Table?
    ensures DecodeMachineFields(fs[0].value.fields, Empty) == Success(c.machine)
  {
    var m := DecodeMachine(fs[0].value).value;
    assert DecodeTop(fs, None) == DecodeTop(fs[1..], Some(m));
  }

  lemma {:induction false} DistinctKeysCount(fs: seq<Field>)
    requires DistinctKeys(fs)
    ensures |Keys(fs)| == |fs|
    decreases |fs|
  {
    if |fs| > 0 {
      var last := |fs| - 1;
      var init := fs[..last];
      assert DistinctKeys(init) by {
        forall i, j | 0 <= i < j < |init| ensures init[i].key != init[j].key {
          assert init[i] == fs[i] && init[j] == fs[j];
        }
      }
      DistinctKeysCount(init);
      assert Keys(fs) == Keys(init) + {fs[last].key} by {
        forall k | k in Keys(fs) ensures k in Keys(init) + {fs[last].key} {
          var i :| 0 <= i < |fs| && fs[i].key == k;
          if i < last { assert init[i] == fs[i]; }
        }
      }
      assert fs[last].key !in Keys(init) by {
        forall i | 0 <= i < |init| ensures init[i].key != fs[last].key {
          assert init[i] == fs[i];
        }
      }
    }
  }

  /** A key outside the schema, anywhere in the `[machine]` table, fails the decode. */
  lemma UnknownFieldRejected(fs: seq<Field>, k: nat)
    requires |fs| > 0 && fs[0].value.Table?
    requires k < |fs[0].value.fields| && fs[0].value.fields[k].key !in MachineFields
    ensures DecodeConfig(fs).Failure?
  {
    if DecodeConfig(fs).Success? {
      DecodedShapeIsExact(fs, DecodeConfig(fs).value);
    }
  }

  /** Serializing a record then deserializing the text gives the record back. */
  lemma FromStrRoundTrip(c: C.Config)
    ensures FromStr(ToStringPretty(c)) == Success(c)
  {
    var m := c.machine;
    var fs := EncodeMachine(m);
    var p1 := Empty.(disk := Some(m.disk));
    var p2 := p1.(cpus := Some(m.cpus));
    var p3 := p2.(memory := Some(m.memory));
    var p4 := p3.(kvm := Some(m.kvm));
    var p5 := p4.(uefi := Some(m.uefi));
    var p6 := p5.(video := Some(m.video));
    assert ParseVideo(VideoName(m.video)) == Some(m.video) by {
      match m.video
      case Std =>
      case VirtIo =>
      case Qxl =>
      case None =>
    }
    assert Visit(Empty, fs[0]) == Success(p1);
    assert Visit(p1, fs[1]) == Success(p2);
    assert Visit(p2, fs[2]) == Success(p3);
    assert Visit(p3, fs[3]) == Success(p4);
    assert Visit(p4, fs[4]) == Success(p5);
    assert Visit(p5, fs[5]) == Success(p6);
    assert DecodeMachineFields(fs[6..], p6) == Success(m);
    assert DecodeMachineFields(fs[5..], p5) == Success(m);
    assert DecodeMachineFields(fs[4..], p4) == Success(m);
    assert DecodeMachineFields(fs[3..], p3) == Success(m);
    assert DecodeMachineFields(fs[2..], p2) == Success(m);
    assert DecodeMachineFields(fs[1..], p1) == Success(m);
    assert DecodeMachineFields(fs, Empty) == Success(m);
    assert DecodeTop(Encode(c)[1..], Some(m)) == Success(c);
  }
}

=== FILE: wrappers.dfy ===
/** `Option`, and a failure-compatible `Result`, used across the model. */
module Wrappers {

  /** A value that may be absent, as Rust's `Option`. */
  datatype Option<+T> = None | Some(value: T)

  /** Either a value or an error, as Rust's `Result`. */
  datatype Result<+R, +E> = Success(value: R) | Failure(error: E) {

    predicate IsFailure() {
      Failure?
    }

    function PropagateFailure<U>(): Result<U, E>
      requires Failure?
    {
      Failure(this.error)
    }

    function Extract(): R
      requires Success?
    {
      value
    }
  }
}
